=== FILE: README.md ===
# Flashcard scheduling: SM-2 updater and deck reducers in Dafny

This project models two independent pieces of pure scheduling logic in a
flashcard study app and proves properties of them.

1. **The SM-2 review updater** in the backend. It exists as two near-twins:
   `sm2Update` in JavaScript and `sm2_update` in Python. One review takes
   the stored `ease_factor`, `repetitions` and `interval_days` of a card, a
   quality grade and the current time. It returns the new ease, streak
   count, interval, due time and review time. Both twins share one core,
   `Sm2.Next`. They differ in four places:
   - how they read the stored fields;
   - how they read the grade (JavaScript wraps it to 32 bits, Python does not);
   - how they round (JavaScript's `Math.round` rounds halves up, Python's
     `round` rounds them to even);
   - which due dates they can represent (a JavaScript Date reaches
     ±8.64e15 ms around 1970, a Python datetime only the years 1 to 9999).

   The model keeps these differences. It proves that on 32-bit inputs
   without an exact-half rounding, whenever the Python twin succeeds the
   JavaScript twin returns the same record, and whenever the JavaScript
   twin fails on the date the Python twin fails too.
2. **The front-end deck** with its own four-label scheduler
   ("again", "hard", "good", "easy"). It is a separate policy: a card has
   only an interval in days, a due time and a review-pile flag. The model
   covers:
   - the interval rule and the due time;
   - the deck's list operations (upsert, remove, toggle review pile, rate);
   - the header counters;
   - the review queue (filter then stable sort by due time) and the
     review screen's index wrap-around;
   - the card search;
   - the add form's `submit`.

   The newer component tree (`frontEnd/…`) and the older single-file copy
   (`FrontEnd/…`) contain the same helpers and reducers. One model serves
   both, and the table below cites the newer copy. In the older
   FrontEnd/src/CardDeck/CardDeck.tsx the same code sits at these lines:
   - `computeNextInterval`: 41-51;
   - `upsertCard`: 99-106;
   - `removeCard`: 108-110;
   - `toggleReviewPile`: 112-126;
   - `rateCard`: 128-142;
   - the due queue: 249-253;
   - `next()`: 260-266;
   - the search: 204-210.

Modules, one per file:

| module | file | contents |
|---|---|---|
| `Numeric` | numeric.dfy | `Math.round`, Python `round`, truncation, 32-bit wrap, `DayMs` |
| `Optional` | optional.dfy | `Option` for missing fields and "nothing created" |
| `Seqs` | seqs.dfy | order-preserving `Filter` and the subsequence relation |
| `Sm2` | sm2.dfy | the backend updater, its twins, the demo trace |
| `CardDeck` | carddeck.dfy | `Card`, the four-label interval rule, the deck reducers, stats |
| `ReviewView` | reviewview.dfy | stable sort, due queue, `next()`, the rating click |
| `Text` | text.dfy | `trim`, ASCII `toLowerCase`, `includes` |
| `LearnView` | learnview.dfy | the search filter |
| `AddView` | addview.dfy | the add form's `submit` |

Modelling choices:
- Times are integers, in milliseconds since the epoch.
- Ease is an exact `real`.
- The clock and the random id suffix are parameters.
- The four-label scheduler changes only the interval, the due time and
  the pile flag; `Card` has no ease or streak count.
- Both SM-2 twins use a negative stored count or interval as it is, and
  both fail on a due date outside their language's date range.

## Model

| member | source | states |
|---|---|---|
| Numeric.RoundHalfUp | backEnd/spaced_repetition.js:49 | `Math.round` gives the integer within half a unit, with halves going up |
| Numeric.RoundHalfEven | backEnd/spaced_repetition.py:85 | Python `round` gives the integer within half a unit, and an exact half goes to the even neighbour |
| Numeric.Round | backEnd/spaced_repetition.py:85 | rounding under either rule lands within half a unit, strictly below the upper half for half-up and on the even neighbour at a half for half-even |
| Numeric.RoundIsHalfUp | backEnd/spaced_repetition.js:49 | the rounding rule used for the JavaScript twin is `Math.round` |
| Numeric.RoundIsHalfEven | backEnd/spaced_repetition.py:85 | the rounding rule used for the Python twin is Python `round` |
| Numeric.ToInt32 | backEnd/spaced_repetition.js:15 | a bitwise-or with 0 lands in the signed 32-bit range, differs from `x` by a multiple of 2^32, and is `x` itself when `x` is in range |
| Numeric.Trunc | backEnd/spaced_repetition.py:65 | `int()` drops the fraction towards zero: the result is within one of `x` and on zero's side of it |
| Numeric.RoundMonotone | backEnd/spaced_repetition.js:49 | either rounding is monotone, so a larger product never rounds to a smaller interval |
| Sm2.ClampInt | backEnd/spaced_repetition.js:14-19 | the result is in `[lo, hi]`: the wrapped value when it is inside, `lo` below, `hi` above |
| Sm2.QualityJs | backEnd/spaced_repetition.js:35 | for any grade within 32 bits, the truncated grade clamped to 0..5 |
| Sm2.QualityPy | backEnd/spaced_repetition.py:65-69 | negative grades read as 0, grades of 5 or more as 5, and a grade in between reads as its whole part |
| Sm2.ReadJs | backEnd/spaced_repetition.js:31-33 | a missing ease reads as 2.5; missing counts and intervals read as 0; a present count or interval reads as the stored value wrapped into 32 bits (`| 0`) |
| Sm2.ReadPy | backEnd/spaced_repetition.py:60-62 | missing fields default to ease 2.5, count 0, interval 0; present ones are used as they are |
| Sm2.EaseAfter | backEnd/spaced_repetition.js:53-54 | the new ease is never below 1.3; grade 5 raises it by 0.1, grade 4 keeps it, grades up to 3 lower it or hit the floor |
| Sm2.StoredEase | backEnd/spaced_repetition.js:59 | the stored ease has exactly four decimals: ten thousand times it is the rounding of ten thousand times the computed ease (halves up for `Math.round`, to even for Python `round`); it is within 0.00005 of that ease, stays at or above 1.3, and an ease that already has four decimals is kept |
| Sm2.GrownInterval | backEnd/spaced_repetition.js:48-49 | the grown interval is the product of the base (the previous interval, or 6 when there was none) and the ease, rounded to the nearest day under the twin's rule |
| Sm2.RoundScaledAtLeast | backEnd/spaced_repetition.js:48-49 | rounding the base times an ease of at least 1 never gives less than the base |
| Sm2.Next | backEnd/spaced_repetition.js:37-63 | a lapse sets count 0 and interval 1; a success adds one to the count, with interval 1 first, then 6, then the rounded product of base and ease (at least the base when the ease is at least 1); the new ease is the stored form of the ease formula, never below 1.3; the due time is exactly `interval` days after `now` |
| Sm2.UpdateJs | backEnd/spaced_repetition.js:28-65 | the JavaScript entry point fails exactly when `now` or the due date lies outside the Date range (`toISOString` throws); otherwise it is `Next` on the wrapped stored fields and grade with half-up rounding: ease at least 1.3, reviewed at `now`, due `interval` days later, and a lapse on any grade that clamps below 3 |
| Sm2.UpdatePy | backEnd/spaced_repetition.py:39-100 | the Python entry point fails exactly when `now` or the due date lies outside years 1 to 9999 (`OverflowError`); otherwise it is `Next` on the stored fields and the clamped grade with half-even rounding, with the same guarantees |
| Sm2.Replay | backEnd/spaced_repetition.js:97-105 | the demo loop gives one result per grade; each review reads the clock afresh, so review i is dated `nows[i]` and falls due its interval in days after that; every ease is at least 1.3 |
| Sm2.LapseForgetsHistory | backEnd/spaced_repetition.js:38-40 | any two cards that lapse at the same moment get the same count (0), interval (1) and due time (one day later) |
| Sm2.EaseAfterStep | backEnd/spaced_repetition.py:88-90 | the ease formula is one fixed step per grade (+0.1, 0, -0.14, -0.32, -0.54, -0.8), floored at 1.3 |
| Sm2.EaseSteps | backEnd/spaced_repetition.js:53-59 | for any card whose stored ease has four decimals, the next stored ease is exactly that ease plus the grade's step, floored at 1.3, under either rounding |
| Sm2.SuccessNeverShrinks | backEnd/spaced_repetition.js:48-49 | from the third success on, with ease at least 1, the interval never shrinks |
| Sm2.SuccessRunGrows | backEnd/spaced_repetition.js:41-50 | along a run of successes past the second, the count goes up one per review and the intervals never shrink |
| Sm2.SuccessRunFromNew | backEnd/spaced_repetition.py:75-85 | successes from a new card give counts 1, 2, 3, …; intervals exactly 1, then exactly 6, then never shrinking |
| Sm2.GoldenTrace | backEnd/spaced_repetition.js:97-105 | from {2.5, 0, 0}, grades 5, 5, 5, 4, 2, 5 give counts 1, 2, 3, 4, 0, 1; intervals 1, 6, 16, 45, 1, 1; eases 2.6, 2.7, 2.8, 2.8, 2.48, 2.58, under either rounding; each review is dated by its own clock reading and falls due its interval in days after it |
| Sm2.GoldenTraceOpening | backEnd/spaced_repetition.py:149-157 | the first three demo reviews, as exact records, each at any time of its own |
| Sm2.GoldenTraceClosing | backEnd/spaced_repetition.py:149-157 | the last three demo reviews, as exact records, each at any time of its own |
| Sm2.ReplayAppend | backEnd/spaced_repetition.py:149-157 | running the demo loop over one grade list and then, from the card it leaves, over another equals running it over the two lists joined |
| Sm2.RoundingMattersOnlyOnHalves | backEnd/spaced_repetition.py:84-95 | if neither the interval product nor the scaled ease is an exact half, half-up and half-even rounding give the same review |
| Sm2.TwinsAgree | backEnd/spaced_repetition.py:39-100 | for 32-bit stored fields and grade, and no exact-half rounding, whenever the Python twin succeeds the JavaScript twin returns the same record, and whenever the JavaScript twin fails on the date so does the Python twin |
| Sm2.TwinsDivergeOnHalfDay | backEnd/spaced_repetition.py:84-85 | a third success from interval 5 with ease 2.5 gives 13 days in JavaScript and 12 in Python, at any `now` both can date |
| Sm2.TwinsDivergeOnFarDate | backEnd/spaced_repetition.py:92 | a third success on a 2,000,000-day interval gives 5,000,000 days: JavaScript still dates it, Python overflows |
| Sm2.TwinsDivergeOnHugeGrade | backEnd/spaced_repetition.js:14-19 | the grade 2^32 + 3 wraps to 3 in JavaScript but clamps to 5 in Python |
| CardDeck.Clamp | frontEnd/src/CardDeck/CardDeck.tsx:11-13 | with `lo <= hi` the result lies in `[lo, hi]`: `n` when inside, the nearer bound otherwise |
| CardDeck.NextInterval | frontEnd/src/CardDeck/CardDeck.tsx:15-25 | "again" is exactly the rating that gives 0; for hard, good and easy the interval is the current one times 1.2, 2 or 3 rounded half up when that lands within the rating's range (1, 2 or 4 up to 365 days), the lower bound below it and 365 above it |
| CardDeck.DueAt | frontEnd/src/CardDeck/CardDeck.tsx:27-30 | the due time is a whole number of days, exactly the interval, after `now` |
| CardDeck.NextIntervalMonotone | frontEnd/src/CardDeck/CardDeck.tsx:22-24 | a longer current interval never gives a shorter next one |
| CardDeck.NextIntervalRatingOrder | frontEnd/src/CardDeck/CardDeck.tsx:21-24 | again < hard <= good <= easy, for every current interval |
| CardDeck.NextIntervalGrowth | frontEnd/src/CardDeck/CardDeck.tsx:22-24 | below the cap a passing rating never shortens; "good" doubles from 1 to 182 days, "easy" triples from 2 to 121, "hard" lengthens from 3 days on |
| CardDeck.Upsert | frontEnd/src/CardDeck/CardDeck.tsx:72-79 | the card ends up in the deck; a known id replaces every card with that id in place and keeps the length; a new id is prepended in front of the unchanged deck |
| CardDeck.Remove | frontEnd/src/CardDeck/CardDeck.tsx:81-83 | no card with the id remains; every other card keeps all its copies, in order (a subsequence of the deck) |
| CardDeck.ToggleReviewPile | frontEnd/src/CardDeck/CardDeck.tsx:85-99 | only cards with the id change, and only their flag and due time: the flag flips; a card entering the pile is due at exactly `now`; a card leaving it keeps its due time |
| CardDeck.RateCard | frontEnd/src/CardDeck/CardDeck.tsx:101-115 | only cards with the id change, and only interval, due time and pile flag: the interval is the next one for the rating, the card joins the pile, and it is due now for "again" or the interval's days later otherwise |
| CardDeck.ComputeStats | frontEnd/src/CardDeck/CardDeck.tsx:64-69 | total is the deck size, inReview the number of positions holding a card in the pile, due the number holding a card in the pile due by `now`; so 0 <= due <= inReview <= total |
| CardDeck.PileCount | frontEnd/src/CardDeck/CardDeck.tsx:66 | the filtered pile is as long as the number of positions holding a card in the pile |
| CardDeck.DueCount | frontEnd/src/CardDeck/CardDeck.tsx:67 | the filtered due list is as long as the number of positions holding a due card in the pile |
| Seqs.FilterSize | frontEnd/src/CardDeck/CardDeck.tsx:66-67 | `filter(...).length` counts the positions whose element passes the test |
| CardDeck.UpsertIdempotent | frontEnd/src/CardDeck/CardDeck.tsx:72-79 | upserting the same card twice is the same as once |
| CardDeck.RemoveUndoesUpsert | frontEnd/src/CardDeck/CardDeck.tsx:72-83 | removing a card's id after upserting it is the same as removing it from the original deck |
| CardDeck.RemoveAfterAdd | frontEnd/src/CardDeck/CardDeck.tsx:72-83 | adding a card with a fresh id and then removing it gives the deck back |
| CardDeck.ToggleTwice | frontEnd/src/CardDeck/CardDeck.tsx:85-99 | toggling twice restores every card except possibly its due time |
| CardDeck.RatedCardDueness | frontEnd/src/CardDeck/CardDeck.tsx:101-115 | after "again" the card is still due; after any other rating it is not due now but is due once its new interval has passed |
| CardDeck.RateCardStats | frontEnd/src/CardDeck/CardDeck.tsx:64-69 | rating keeps the total and never shrinks the pile; a passing rating never raises the due count; "again" never lowers it |
| ReviewView.SortByDue | frontEnd/src/CardDeck/Views/ReviewView.tsx:14 | the result is sorted by due time and is a permutation of the input |
| ReviewView.InsertSorted | frontEnd/src/CardDeck/Views/ReviewView.tsx:14 | inserting into a sorted queue keeps it sorted |
| ReviewView.SortByDueStable | frontEnd/src/CardDeck/Views/ReviewView.tsx:14 | the sort is stable: cards with equal due times keep their input order |
| ReviewView.SortedWithSameClassesEqual | frontEnd/src/CardDeck/Views/ReviewView.tsx:14 | two sorted sequences whose equal-due-time classes match are equal, so the stable sort's result is unique |
| ReviewView.DueQueue | frontEnd/src/CardDeck/Views/ReviewView.tsx:11-15 | every queued card is due; a card is queued exactly when it is in the deck and due; the queue is a permutation of the deck's due cards, sorted, and as long as the header's due count |
| ReviewView.DueQueueStable | frontEnd/src/CardDeck/Views/ReviewView.tsx:12-14 | cards due at the same moment are queued in deck order |
| ReviewView.DueQueueUnique | frontEnd/src/CardDeck/Views/ReviewView.tsx:12-14 | any sorted, stable arrangement of the due cards is the queue |
| ReviewView.Current | frontEnd/src/CardDeck/Views/ReviewView.tsx:20 | there is no current card exactly when the index is out of range; otherwise the current card is the queue's card at the index |
| ReviewView.Advance | frontEnd/src/CardDeck/Views/ReviewView.tsx:24-27 | the index moves one forward while that stays below the length, and wraps to 0 otherwise; on a non-empty queue it stays in range |
| ReviewView.Next | frontEnd/src/CardDeck/Views/ReviewView.tsx:22-28 | `next()` hides the answer and advances the index as `Advance` does, so it stays within a non-empty queue |
| ReviewView.AdvanceCycles | frontEnd/src/CardDeck/Views/ReviewView.tsx:22-28 | on an unchanging queue, `len` calls of `next()` come back to the same card |
| ReviewView.EveryCardComesUp | frontEnd/src/CardDeck/Views/ReviewView.tsx:22-28 | on an unchanging queue, every card is reached within fewer than `len` calls |
| ReviewView.ClickRatingAsWritten | frontEnd/src/CardDeck/Views/ReviewView.tsx:60-70 | a rating click rates the current card, then advances the index as `next()` does against the length of the queue the click was rendered with, so the index stays within that stale length |
| ReviewView.StaleLengthHidesDueCard | frontEnd/src/CardDeck/Views/ReviewView.tsx:22-38 | two due cards, the first rated "good": the screen shows no card although one is still due |
| ReviewView.ClickRating | frontEnd/src/CardDeck/Views/ReviewView.tsx:22-28 | with the wrap-around taken against the queue after the rating, the index advances against that queue's length, so a non-empty queue always shows a card |
| Text.TrimStart | frontEnd/src/CardDeck/Views/LearnView.tsx:15 | removes exactly a whitespace prefix, leaving a suffix that does not start with whitespace |
| Text.TrimEnd | frontEnd/src/CardDeck/Views/LearnView.tsx:15 | removes exactly a whitespace suffix, leaving a prefix that does not end with whitespace |
| Text.SkipForward | frontEnd/src/CardDeck/Views/LearnView.tsx:15 | the scan from the left stops at the first non-whitespace character, or the end, having passed only whitespace |
| Text.SkipBackward | frontEnd/src/CardDeck/Views/LearnView.tsx:15 | the scan from the right stops after the last non-whitespace character, or at the start, having passed only whitespace |
| Text.Trim | frontEnd/src/CardDeck/Views/LearnView.tsx:15 | `trim()` is a middle segment of the query with only whitespace before and after it, neither starts nor ends with whitespace, and is empty exactly when the query is all whitespace |
| Text.TrimUnique | frontEnd/src/CardDeck/Views/LearnView.tsx:15 | any middle segment with only whitespace around it that neither starts nor ends with whitespace is `trim()`'s result |
| Text.Lower | frontEnd/src/CardDeck/Views/LearnView.tsx:15 | `toLowerCase()` maps every character, and only A-Z change |
| Text.ContainsAt | frontEnd/src/CardDeck/Views/LearnView.tsx:18 | `includes` holds exactly when the needle occurs at some offset |
| Text.TrimLower | frontEnd/src/CardDeck/Views/LearnView.tsx:15 | trimming and lower-casing commute |
| Text.TrimIdempotent | FrontEnd/src/CardDeck/CardDeck.tsx:334-335 | trimming twice is trimming once |
| LearnView.Filtered | frontEnd/src/CardDeck/Views/LearnView.tsx:14-20 | a blank query returns the deck unchanged; otherwise a card is kept exactly when its lower-cased front or back contains the lower-cased, trimmed query; every copy of a kept card is kept; the result is a subsequence of the deck |
| LearnView.MatchesAt | frontEnd/src/CardDeck/Views/LearnView.tsx:18 | a card matches exactly when the needle occurs at some offset of its lower-cased front or back |
| LearnView.SearchIgnoresQueryCase | frontEnd/src/CardDeck/Views/LearnView.tsx:15 | lower-casing the query first changes nothing |
| LearnView.SearchIgnoresSurroundingBlanks | frontEnd/src/CardDeck/Views/LearnView.tsx:15-16 | trimming the query first changes nothing |
| LearnView.SearchIgnoresCardCase | frontEnd/src/CardDeck/Views/LearnView.tsx:18 | lower-casing a card's text does not change whether it matches |
| LearnView.Matching | frontEnd/src/CardDeck/Views/LearnView.tsx:17-19 | a card is kept exactly when its lower-cased front or back contains the needle; every copy of a kept card is kept; the result is a subsequence of the deck |
| LearnView.TypingMoreNarrows | frontEnd/src/CardDeck/Views/LearnView.tsx:17-19 | extending the needle (the trimmed, lower-cased query) only removes cards from the matching ones |
| AddView.Submit | FrontEnd/src/CardDeck/CardDeck.tsx:333-344 | nothing is created exactly when the front or the back is blank; otherwise the card has id `c_` + suffix, trimmed non-empty text, no tags, is in the pile, due at exactly `now`, with interval 0 |
| AddView.SubmitIdempotent | FrontEnd/src/CardDeck/CardDeck.tsx:334-336 | submitting a new card's own text again makes the same card |
| AddView.AddRaisesStats | FrontEnd/src/CardDeck/CardDeck.tsx:91-106 | adding a due card with a fresh id raises total, pile and due counts by one each |
| AddView.SubmittedCardIsQueued | FrontEnd/src/CardDeck/CardDeck.tsx:337-344 | a submitted card with a fresh id is in the review queue at once |
| AddView.FirstRatingOfNewCard | FrontEnd/src/CardDeck/CardDeck.tsx:41-51 | a new card's first rating gives 0, 1, 2 and 4 days for again, hard, good and easy |

## Left out

- `updateCardDb` and `update_card_db`: a SQL read-modify-write over a database connection. Only the `sm2Update` / `sm2_update` step inside them is modelled.
- IEEE-754 arithmetic: ease, products and grades are exact reals. A float product that lands a hair off an exact half can round differently in the program than in the model.
- NaN, infinities and non-numeric inputs. JavaScript's `Number(...)` of strings and Python's `float()` / `int()` exceptions are not modelled. A stored count or interval is an integer or missing; a non-finite JavaScript count or interval counts as missing.
- ISO-8601 formatting of `due_date` and `last_reviewed`: both are integer milliseconds. Only the failure of that step is modelled: `Sm2.UpdateJs` / `Sm2.UpdatePy` return `DateOutOfRange` where `toISOString` throws a RangeError (backEnd/spaced_repetition.js:56, 62) or `now + timedelta(...)` raises OverflowError (backEnd/spaced_repetition.py:92).
- Sub-millisecond time: a Python `datetime` carries microseconds, and the model rounds every time to whole milliseconds.
- The clock: `now` is a parameter, including the default `new Date()` / `datetime.now()` when none is given. Each front-end operation reads the clock once; the demo loop reads it once per review, modelled as one time per grade. The stats and queue memos are evaluated at the `now` they are given; the model does not track that they recompute only when the cards change.
- `uid()` randomness: the id suffix is a parameter.
- Text.Lower: `toLowerCase` is modelled on ASCII letters only. Other scripts' case mappings (including ones that change length) are not modelled.
- JavaScript's `sort` comparator `a.dueAt - b.dueAt` is modelled as integer comparison. It is exact for millisecond times below 2^53.
- The deck's other fields (name, subject, course, professor) and the tab state: carried through unchanged by every reducer.
- React rendering, styles, the "Show answer" button (it only sets `showBack`), the edit callbacks, `CardRow`, `CardEditor`, and the import placeholder.
- The newer `frontEnd/src/CardDeck/Views/AddView.tsx` and its card construction are not part of this model. `submit` is modelled from the older single-file copy.
- The server, authentication, AI quiz generation, PDF parsing and database services are outside this model.

## Findings

| source | as written | input that shows it | evidently intended | confidence | as-written member | corrected member |
|---|---|---|---|---|---|---|
| frontEnd/src/CardDeck/Views/ReviewView.tsx:22-28 | `next()` wraps the index against `dueCards.length` as captured when the rating button was rendered. Rating a card "hard", "good" or "easy" removes it from the recomputed queue, so the index can step past the end of the new, shorter queue. | Cards `a` (due at 0) and `b` (due at 1), both in the pile, at time 10, index 0. Rate `a` "good": the queue becomes `[b]`, the index becomes 1, and the screen shows "No cards due" while `b` is due. The same code is at FrontEnd/src/CardDeck/CardDeck.tsx:260-266. | Wrap against the queue after the rating, so a non-empty queue always shows a card. | medium; not executed | ReviewView.ClickRatingAsWritten, ReviewView.StaleLengthHidesDueCard | ReviewView.ClickRating |

=== FILE: addview.dfy ===
/**
  The add form's `submit`: a card is made only when both sides have text
  after trimming; it enters the review pile due at once, with no interval
  yet.
 */
module AddView {
  import opened Numeric
  import opened Optional
  import opened Seqs
  import opened Text
  import opened CardDeck
  import opened ReviewView

  /** `submit()`. `uid` stands for the random suffix the form generates
      and `now` for the clock; `None` is the early return that creates
      nothing. */
  function Submit(front: string, back: string, uid: string, now: int): (r: Option<Card>)
    ensures r.None? <==> IsBlank(front) || IsBlank(back)
    ensures r.Some? ==>
      && r.value.id == "c_" + uid
      && r.value.front == Trim(front) && r.value.back == Trim(back)
      && r.value.front != [] && r.value.back != []
      && r.value.tags == None
      && r.value.inReviewPile && r.value.dueAt == now
      && r.value.intervalDays == 0
  {
    var f := Trim(front);
    var b := Trim(back);
    if f == [] || b == [] then None
    else Some(Card("c_" + uid, f, b, None, true, now, 0))
  }

  /** Submitting the text of a new card again makes the same card. */
  lemma SubmitIdempotent(front: string, back: string, uid: string, now: int)
    requires Submit(front, back, uid, now).Some?
    ensures var c := Submit(front, back, uid, now).value;
      Submit(c.front, c.back, uid, now) == Submit(front, back, uid, now)
  {
    var f, b := Trim(front), Trim(back);
    TrimIdempotent(front);
    TrimIdempotent(back);
    assert !IsBlank(f) && !IsBlank(b);
  }

  /** A new card with a fresh identifier joins the deck at the front and
      raises every counter by one. */
  lemma AddRaisesStats(cards: seq<Card>, card: Card, now: int)
    requires IsDue(card, now)
    requires !HasId(cards, card.id)
    ensures var before := ComputeStats(cards, now);
      ComputeStats(Upsert(cards, card), now) == Stats(before.total + 1, before.inReview + 1, before.due + 1)
  {
    FilterCons((c: Card) => c.inReviewPile, card, cards);
    FilterCons((c: Card) => IsDue(c, now), card, cards);
  }

  /** So a submitted card is waiting in the review queue straight away. */
  lemma SubmittedCardIsQueued(cards: seq<Card>, front: string, back: string, uid: string, now: int)
    requires Submit(front, back, uid, now).Some?
    requires !HasId(cards, "c_" + uid)
    ensures Submit(front, back, uid, now).value in DueQueue(Upsert(cards, Submit(front, back, uid, now).value), now)
  {
  }

  /** Its first rating gives one day for "hard", two for "good", four for
      "easy", and keeps it due for "again". */
  lemma FirstRatingOfNewCard(front: string, back: string, uid: string, now: int)
    requires Submit(front, back, uid, now).Some?
    ensures var c := Submit(front, back, uid, now).value;
      && NextInterval(c.intervalDays, Again) == 0
      && NextInterval(c.intervalDays, Hard) == 1
      && NextInterval(c.intervalDays, Good) == 2
      && NextInterval(c.intervalDays, Easy) == 4
  {
    RoundIntegral(HalfUp, 0);
  }
}

=== FILE: carddeck.dfy ===
/**
  The front-end deck: the card record, the four-label interval scheduler
  ("again", "hard", "good", "easy") and the list operations the deck
  component applies to its cards.

  This scheduler is a policy of its own, independent of the backend's SM-2
  updater: a card carries only an interval in days, a due time and a
  review-pile flag, with no ease and no streak count.

  Every operation maps the deck's card list to a new one; the deck's other
  fields (name, subject, course) are carried over by the component and play
  no part here.
 */
module CardDeck {
  import opened Numeric
  import opened Optional
  import opened Seqs

  /** A flashcard. Times are milliseconds since the epoch. */
  datatype Card = Card(
    id: string,
    front: string,
    back: string,
    tags: Option<seq<string>>,
    inReviewPile: bool,
    dueAt: int,
    intervalDays: int)

  datatype Rating = Again | Hard | Good | Easy

  /** The longest interval the scheduler hands out. */
  const MaxIntervalDays: int := 365

  /** `clamp(n, lo, hi)`: `n` pulled into `[lo, hi]`. */
  function Clamp(n: int, lo: int, hi: int): (r: int)
    ensures lo <= hi ==> lo <= r <= hi
    ensures lo <= n <= hi ==> r == n
    ensures n < lo ==> r == lo
    ensures lo <= hi < n ==> r == hi
  {
    Max(lo, Min(hi, n))
  }

  /** The shortest interval each passing rating gives. */
  function MinDays(rating: Rating): int {
    match rating
    case Again => 0
    case Hard => 1
    case Good => 2
    case Easy => 4
  }

  /** The factor each passing rating scales the current interval by. */
  function Factor(rating: Rating): real {
    match rating
    case Again => 0.0
    case Hard => 1.2
    case Good => 2.0
    case Easy => 3.0
  }

  /** `computeNextInterval`: the new interval after a rating, from the
      current one. "Again" restarts at 0; the others scale the current
      interval by 1.2, 2 or 3, round, and keep the result between the
      rating's minimum and a year. */
  function NextInterval(currentDays: int, rating: Rating): (r: int)
    ensures r == 0 <==> rating == Again
    ensures MinDays(rating) <= r <= MaxIntervalDays
    // A passing rating: the scaled interval rounded half up (Math.round)
    // when that lands within the rating's range, else the nearer bound.
    ensures rating != Again ==>
      var x := currentDays as real * Factor(rating);
      && (x < MinDays(rating) as real - 0.5 ==> r == MinDays(rating))
      && (MinDays(rating) as real - 0.5 <= x < MaxIntervalDays as real + 0.5 ==> RoundsTo(HalfUp, x, r))
      && (MaxIntervalDays as real + 0.5 <= x ==> r == MaxIntervalDays)
  {
    match rating
    case Again => 0
    case Hard => Clamp(Max(1, RoundHalfUp(currentDays as real * 1.2)), 1, MaxIntervalDays)
    case Good => Clamp(Max(2, RoundHalfUp(currentDays as real * 2.0)), 2, MaxIntervalDays)
    case Easy => Clamp(Max(4, RoundHalfUp(currentDays as real * 3.0)), 4, MaxIntervalDays)
  }

  /** `computeDueAt`: `intervalDays` whole days after `now`. */
  function DueAt(intervalDays: int, now: int): (r: int)
    ensures (r - now) / DayMs == intervalDays && (r - now) % DayMs == 0
    ensures intervalDays > 0 ==> r > now
  {
    now + intervalDays * DayMs
  }

  /** A card is due when it is in the review pile and its time has come. */
  predicate IsDue(c: Card, now: int) {
    c.inReviewPile && c.dueAt <= now
  }

  /** Some card carries identifier `id`. */
  predicate HasId(cards: seq<Card>, id: string) {
    exists i :: 0 <= i < |cards| && cards[i].id == id
  }

  /** Apply `f` to every card whose identifier is `id`; leave the rest alone. */
  function MapMatching(cards: seq<Card>, id: string, f: Card -> Card): (r: seq<Card>)
    ensures |r| == |cards|
    ensures forall i :: 0 <= i < |cards| ==> r[i] == if cards[i].id == id then f(cards[i]) else cards[i]
  {
    seq(|cards|, i requires 0 <= i < |cards| => if cards[i].id == id then f(cards[i]) else cards[i])
  }

  /** `upsertCard`: a card with a known identifier replaces every card with
      that identifier in place; a card with a new identifier goes in front. */
  function Upsert(cards: seq<Card>, card: Card): (r: seq<Card>)
    ensures card in r
    ensures HasId(cards, card.id) ==> |r| == |cards|
    ensures HasId(cards, card.id) ==>
      forall i :: 0 <= i < |cards| ==> r[i] == if cards[i].id == card.id then card else cards[i]
    ensures !HasId(cards, card.id) ==> |r| == |cards| + 1 && r[0] == card && r[1..] == cards
  {
    if HasId(cards, card.id) then
      var i :| 0 <= i < |cards| && cards[i].id == card.id;
      var r := MapMatching(cards, card.id, _ => card);
      assert r[i] == card;
      r
    else
      [card] + cards
  }

  /** `removeCard`: drop every card with identifier `id`, keeping the order
      of the others. */
  function Remove(cards: seq<Card>, id: string): (r: seq<Card>)
    ensures !HasId(r, id)
    ensures forall c :: c in r <==> c in cards && c.id != id
    ensures forall c :: multiset(r)[c] == if c.id != id then multiset(cards)[c] else 0
    ensures IsSubsequence(r, cards)
  {
    var p := (c: Card) => c.id != id;
    forall c ensures c in Filter(p, cards) <==> c in cards && c.id != id {
      FilterMembership(p, cards, c);
    }
    forall c ensures multiset(Filter(p, cards))[c] == if c.id != id then multiset(cards)[c] else 0 {
      FilterCount(p, cards, c);
    }
    FilterIsSubsequence(p, cards);
    Filter(p, cards)
  }

  /** One card after its review-pile checkbox is toggled: a card entering
      the pile becomes due at once, a card leaving it keeps its due time. */
  function Toggled(c: Card, now: int): Card {
    c.(inReviewPile := !c.inReviewPile, dueAt := if !c.inReviewPile then now else c.dueAt)
  }

  /** `toggleReviewPile`. */
  function ToggleReviewPile(cards: seq<Card>, id: string, now: int): (r: seq<Card>)
    ensures |r| == |cards|
    ensures forall i :: 0 <= i < |cards| && cards[i].id != id ==> r[i] == cards[i]
    ensures forall i :: 0 <= i < |cards| && cards[i].id == id ==>
      && r[i].inReviewPile == !cards[i].inReviewPile
      && (cards[i].inReviewPile ==> r[i].dueAt == cards[i].dueAt)
      && (!cards[i].inReviewPile ==> r[i].dueAt == now && IsDue(r[i], now))
      && r[i].(inReviewPile := cards[i].inReviewPile, dueAt := cards[i].dueAt) == cards[i]
  {
    MapMatching(cards, id, c => Toggled(c, now))
  }

  /** One card after it is rated. */
  function Rated(c: Card, rating: Rating, now: int): Card {
    var next := NextInterval(c.intervalDays, rating);
    c.(intervalDays := next, dueAt := if rating == Again then now else DueAt(next, now), inReviewPile := true)
  }

  /** `rateCard`: every card with identifier `id` gets the next interval for
      the rating, is put in the review pile, and falls due again after that
      many days ("again": at once). Its text and tags do not change. */
  function RateCard(cards: seq<Card>, id: string, rating: Rating, now: int): (r: seq<Card>)
    ensures |r| == |cards|
    ensures forall i :: 0 <= i < |cards| && cards[i].id != id ==> r[i] == cards[i]
    ensures forall i :: 0 <= i < |cards| && cards[i].id == id ==>
      && r[i].inReviewPile
      && r[i].intervalDays == NextInterval(cards[i].intervalDays, rating)
      && (rating == Again ==> r[i].dueAt == now)
      && (rating != Again ==> r[i].dueAt - now == r[i].intervalDays * DayMs)
      && r[i].(intervalDays := cards[i].intervalDays, dueAt := cards[i].dueAt, inReviewPile := cards[i].inReviewPile) == cards[i]
  {
    MapMatching(cards, id, c => Rated(c, rating, now))
  }

  /** The header's counters. */
  datatype Stats = Stats(total: int, inReview: int, due: int)

  /** The cards due at `now`, in deck order. */
  function DueCards(cards: seq<Card>, now: int): seq<Card> {
    Filter((c: Card) => IsDue(c, now), cards)
  }

  /** The cards in the review pile, in deck order. */
  function PileCards(cards: seq<Card>): seq<Card> {
    Filter((c: Card) => c.inReviewPile, cards)
  }

  /** The derived `stats`: all cards, cards in the review pile, cards due. */
  function ComputeStats(cards: seq<Card>, now: int): (s: Stats)
    ensures s.total == |cards|
    ensures s.inReview == |set i | 0 <= i < |cards| && cards[i].inReviewPile|
    ensures s.due == |set i | 0 <= i < |cards| && IsDue(cards[i], now)|
    ensures 0 <= s.due <= s.inReview <= s.total
  {
    FilterStrongerIsShorter((c: Card) => IsDue(c, now), (c: Card) => c.inReviewPile, cards);
    PileCount(cards);
    DueCount(cards, now);
    Stats(|cards|, |PileCards(cards)|, |DueCards(cards, now)|)
  }

  /** The pile holds one card per position whose card is in the pile. */
  lemma PileCount(cards: seq<Card>)
    ensures |PileCards(cards)| == |set i | 0 <= i < |cards| && cards[i].inReviewPile|
  {
    var p := (c: Card) => c.inReviewPile;
    FilterSize(p, cards);
    forall i ensures i in Positions(p, cards) <==> 0 <= i < |cards| && cards[i].inReviewPile {
    }
    assert Positions(p, cards) == set i | 0 <= i < |cards| && cards[i].inReviewPile;
  }

  /** The due cards, one per position whose card is due. */
  lemma DueCount(cards: seq<Card>, now: int)
    ensures |DueCards(cards, now)| == |set i | 0 <= i < |cards| && IsDue(cards[i], now)|
  {
    var p := (c: Card) => IsDue(c, now);
    FilterSize(p, cards);
    forall i ensures i in Positions(p, cards) <==> 0 <= i < |cards| && IsDue(cards[i], now) {
    }
    assert Positions(p, cards) == set i | 0 <= i < |cards| && IsDue(cards[i], now);
  }

  // ---------------------------------------------------------------------------
  // Properties of the interval scheduler

  /** A longer current interval never gives a shorter next one. */
  lemma NextIntervalMonotone(d1: int, d2: int, rating: Rating)
    requires d1 <= d2
    ensures NextInterval(d1, rating) <= NextInterval(d2, rating)
  {
    match rating
    case Again =>
    case Hard => RoundMonotone(HalfUp, d1 as real * 1.2, d2 as real * 1.2);
    case Good => RoundMonotone(HalfUp, d1 as real * 2.0, d2 as real * 2.0);
    case Easy => RoundMonotone(HalfUp, d1 as real * 3.0, d2 as real * 3.0);
  }

  /** The better the rating, the longer the next interval. */
  lemma NextIntervalRatingOrder(d: int)
    ensures NextInterval(d, Again) < NextInterval(d, Hard)
    ensures NextInterval(d, Hard) <= NextInterval(d, Good) <= NextInterval(d, Easy)
  {
    if d >= 0 {
      RoundMonotone(HalfUp, d as real * 1.2, d as real * 2.0);
      RoundMonotone(HalfUp, d as real * 2.0, d as real * 3.0);
    }
  }

  /** A passing rating never shortens an interval that is within the cap,
      and within reach of the cap "good" doubles it, "easy" triples it and
      "hard" (from 3 days on) lengthens it. */
  lemma NextIntervalGrowth(d: int, rating: Rating)
    requires rating != Again && 0 <= d <= MaxIntervalDays
    ensures NextInterval(d, rating) >= d
    ensures rating == Good && 1 <= d <= 182 ==> NextInterval(d, rating) == 2 * d
    ensures rating == Easy && 2 <= d <= 121 ==> NextInterval(d, rating) == 3 * d
    ensures rating == Hard && 3 <= d < MaxIntervalDays ==> NextInterval(d, rating) > d
  {
    RoundIntegral(HalfUp, 2 * d);
    RoundIntegral(HalfUp, 3 * d);
    assert (2 * d) as real == d as real * 2.0;
    assert (3 * d) as real == d as real * 3.0;
  }

  // ---------------------------------------------------------------------------
  // Properties of the list operations

  /** Upserting the same card twice is the same as upserting it once. */
  lemma UpsertIdempotent(cards: seq<Card>, card: Card)
    ensures Upsert(Upsert(cards, card), card) == Upsert(cards, card)
  {
    var once := Upsert(cards, card);
    assert HasId(once, card.id) by {
      var i :| 0 <= i < |once| && once[i] == card;
    }
    if !HasId(cards, card.id) {
      assert once[0] == card;
      forall i | 0 <= i < |once|
        ensures Upsert(once, card)[i] == once[i]
      {
        if i > 0 {
          assert once[i] == cards[i - 1];
        }
      }
    }
  }

  /** Removing a card's identifier undoes its upsert, whether the upsert
      replaced cards or added one. */
  lemma RemoveUndoesUpsert(cards: seq<Card>, card: Card)
    ensures Remove(Upsert(cards, card), card.id) == Remove(cards, card.id)
  {
    var p := (c: Card) => c.id != card.id;
    var up := Upsert(cards, card);
    if HasId(cards, card.id) {
      FilterAgreeOnMatching(p, up, cards);
    } else {
      FilterCons(p, card, cards);
    }
  }

  /** Filtering ignores every position where the two sequences differ only
      on dropped elements. */
  lemma {:induction false} FilterAgreeOnMatching(p: Card -> bool, a: seq<Card>, b: seq<Card>)
    requires |a| == |b|
    requires forall i :: 0 <= i < |a| ==> (a[i] == b[i] || (!p(a[i]) && !p(b[i])))
    ensures Filter(p, a) == Filter(p, b)
    decreases |a|
  {
    if a != [] {
      FilterAgreeOnMatching(p, a[1..], b[1..]);
    }
  }

  /** Removing a card that was just added with a fresh identifier gives the
      deck back. */
  lemma RemoveAfterAdd(cards: seq<Card>, card: Card)
    requires !HasId(cards, card.id)
    ensures Remove(Upsert(cards, card), card.id) == cards
  {
    RemoveUndoesUpsert(cards, card);
    FilterKeepsAll((c: Card) => c.id != card.id, cards);
  }

  /** Toggling twice restores the review pile and everything but due times;
      cards with other identifiers are untouched throughout. */
  lemma ToggleTwice(cards: seq<Card>, id: string, t1: int, t2: int)
    ensures var r := ToggleReviewPile(ToggleReviewPile(cards, id, t1), id, t2);
      && |r| == |cards|
      && forall i :: 0 <= i < |cards| ==> r[i].(dueAt := cards[i].dueAt) == cards[i]
  {
  }

  /** Rating with anything but "again" takes the card out of the due set
      until its new interval has passed; "again" leaves it due. */
  lemma RatedCardDueness(cards: seq<Card>, id: string, rating: Rating, now: int, i: int)
    requires 0 <= i < |cards| && cards[i].id == id
    ensures rating == Again ==> IsDue(RateCard(cards, id, rating, now)[i], now)
    ensures rating != Again ==> !IsDue(RateCard(cards, id, rating, now)[i], now)
    ensures rating != Again ==>
      IsDue(RateCard(cards, id, rating, now)[i], now + NextInterval(cards[i].intervalDays, rating) * DayMs)
  {
  }

  /** Rating never shrinks the review pile; a passing rating never grows the
      due count, and "again" never shrinks it. */
  lemma RateCardStats(cards: seq<Card>, id: string, rating: Rating, now: int)
    ensures var before := ComputeStats(cards, now);
      var after := ComputeStats(RateCard(cards, id, rating, now), now);
      && after.total == before.total
      && after.inReview >= before.inReview
      && (rating != Again ==> after.due <= before.due)
      && (rating == Again ==> after.due >= before.due)
  {
    var r := RateCard(cards, id, rating, now);
    FilterPointwiseShorter((c: Card) => c.inReviewPile, r, cards);
    if rating != Again {
      FilterPointwiseShorter((c: Card) => IsDue(c, now), cards, r);
    } else {
      FilterPointwiseShorter((c: Card) => IsDue(c, now), r, cards);
    }
  }
}

=== FILE: learnview.dfy ===
/**
  The card list's search box: the query is trimmed and lower-cased once;
  a blank query shows every card, any other shows the cards whose
  lower-cased front or back contains it, in deck order.
 */
module LearnView {
  import opened Seqs
  import opened Text
  import opened CardDeck

  /** The query as the search compares it. */
  function Needle(query: string): string {
    Lower(Trim(query))
  }

  /** A card matches a (lower-cased) needle when its front or its back,
      lower-cased, contains it. */
  predicate Matches(c: Card, needle: string) {
    Contains(Lower(c.front), needle) || Contains(Lower(c.back), needle)
  }

  /** The cards that match a needle, in deck order. */
  function Matching(cards: seq<Card>, needle: string): (r: seq<Card>)
    ensures forall c :: c in r <==> c in cards && Matches(c, needle)
    ensures forall c :: multiset(r)[c] == if Matches(c, needle) then multiset(cards)[c] else 0
    ensures IsSubsequence(r, cards)
  {
    var p := (c: Card) => Matches(c, needle);
    forall c ensures c in Filter(p, cards) <==> c in cards && Matches(c, needle) {
      FilterMembership(p, cards, c);
    }
    forall c ensures multiset(Filter(p, cards))[c] == if Matches(c, needle) then multiset(cards)[c] else 0 {
      FilterCount(p, cards, c);
    }
    FilterIsSubsequence(p, cards);
    Filter(p, cards)
  }

  /** The `filtered` memo. */
  function Filtered(cards: seq<Card>, query: string): (r: seq<Card>)
    ensures IsBlank(query) ==> r == cards
    ensures !IsBlank(query) ==> forall c :: c in r <==> c in cards && Matches(c, Needle(query))
    ensures forall c :: multiset(r)[c] == if IsBlank(query) || Matches(c, Needle(query)) then multiset(cards)[c] else 0
    ensures IsSubsequence(r, cards)
  {
    var q := Needle(query);
    if q == [] then
      SubsequenceRefl(cards);
      cards
    else
      Matching(cards, q)
  }

  /** A card matches when the needle occurs at some offset of its
      lower-cased front or back. */
  lemma MatchesAt(c: Card, needle: string)
    ensures Matches(c, needle) <==>
      (exists i :: OccursAt(Lower(c.front), needle, i)) || (exists i :: OccursAt(Lower(c.back), needle, i))
  {
    ContainsAt(Lower(c.front), needle);
    ContainsAt(Lower(c.back), needle);
  }

  /** The case of the query does not matter. */
  lemma SearchIgnoresQueryCase(cards: seq<Card>, query: string)
    ensures Filtered(cards, Lower(query)) == Filtered(cards, query)
  {
    TrimLower(query);
    LowerIdempotent(Trim(query));
  }

  /** Whitespace around the query does not matter. */
  lemma SearchIgnoresSurroundingBlanks(cards: seq<Card>, query: string)
    ensures Filtered(cards, Trim(query)) == Filtered(cards, query)
  {
    TrimIdempotent(query);
  }

  /** Nor does the case of the cards' text. */
  lemma SearchIgnoresCardCase(c: Card, query: string)
    ensures Matches(c.(front := Lower(c.front), back := Lower(c.back)), Needle(query)) == Matches(c, Needle(query))
  {
    LowerIdempotent(c.front);
    LowerIdempotent(c.back);
  }

  /** A longer query never finds more cards than a shorter one it extends. */
  lemma {:induction false} ContainsLonger(text: string, q: string, more: string)
    requires Contains(text, q + more)
    ensures Contains(text, q)
    decreases |text|
  {
    if !((q + more) <= text) {
      ContainsLonger(text[1..], q, more);
    } else {
      assert (q + more)[..|q|] == q;
    }
  }

  /** Typing more after the needle only narrows the list. */
  lemma TypingMoreNarrows(cards: seq<Card>, needle: string, more: string)
    ensures forall c :: c in Matching(cards, needle + more) ==> c in Matching(cards, needle)
  {
    forall c | c in Matching(cards, needle + more) ensures c in Matching(cards, needle) {
      if Contains(Lower(c.front), needle + more) {
        ContainsLonger(Lower(c.front), needle, more);
      } else {
        ContainsLonger(Lower(c.back), needle, more);
      }
    }
  }
}

=== FILE: numeric.dfy ===
/**
  Number conversions the scheduler code relies on, written out exactly:
  JavaScript's Math.round, Python's round, truncation of a number to an
  integer, and the 32-bit wrap-around of JavaScript's `x | 0`.
 */
module Numeric {

  /** Milliseconds in one day: 24 * 60 * 60 * 1000. */
  const DayMs: int := 86400000

  const TwoTo31: int := 0x8000_0000
  const TwoTo32: int := 0x1_0000_0000

  /** How a language rounds a real to the nearest integer. */
  datatype Rounding =
    | HalfUp    // JavaScript Math.round: halves go towards +infinity
    | HalfEven  // Python round: halves go to the even neighbour

  /** True when `x` lies exactly half-way between two integers. */
  predicate OnHalf(x: real) {
    x - x.Floor as real == 0.5
  }

  function Min(a: int, b: int): (r: int)
    ensures r <= a && r <= b && (r == a || r == b)
  {
    if a <= b then a else b
  }

  function Max(a: int, b: int): (r: int)
    ensures r >= a && r >= b && (r == a || r == b)
  {
    if a >= b then a else b
  }

  /** JavaScript's Math.round. */
  function RoundHalfUp(x: real): (r: int)
    ensures r as real - 0.5 <= x < r as real + 0.5
  {
    (x + 0.5).Floor
  }

  /** Python's round with no digits argument (banker's rounding). */
  function RoundHalfEven(x: real): (r: int)
    ensures r as real - 0.5 <= x <= r as real + 0.5
    ensures (x == r as real - 0.5 || x == r as real + 0.5) ==> r % 2 == 0
  {
    var f := x.Floor;
    var d := x - f as real;
    if d < 0.5 then f
    else if d > 0.5 then f + 1
    else if f % 2 == 0 then f
    else f + 1
  }

  /** `n` is `x` rounded to the nearest integer under rule `m`: within a
      half of `x`, with an exact half going up under HalfUp and to the even
      neighbour under HalfEven. */
  predicate RoundsTo(m: Rounding, x: real, n: int) {
    && n as real - 0.5 <= x <= n as real + 0.5
    && (m.HalfUp? ==> x < n as real + 0.5)
    && (m.HalfEven? && (x == n as real - 0.5 || x == n as real + 0.5) ==> n % 2 == 0)
  }

  /** `x` rounded under rule `m`: the one integer `RoundsTo` allows, which
      is Math.round's result for HalfUp and Python round's for HalfEven. */
  function Round(m: Rounding, x: real): (r: int)
    ensures RoundsTo(m, x, r)
  {
    assert RoundsTo(m, x, if m.HalfUp? then RoundHalfUp(x) else RoundHalfEven(x));
    assert forall a, b :: RoundsTo(m, x, a) && RoundsTo(m, x, b) ==> a == b by {
      forall a, b | RoundsTo(m, x, a) && RoundsTo(m, x, b) ensures a == b {
        RoundsToUnique(m, x, a, b);
      }
    }
    var n :| RoundsTo(m, x, n);
    n
  }

  /** Under HalfUp, Round is Math.round. */
  lemma RoundIsHalfUp(x: real)
    ensures Round(HalfUp, x) == RoundHalfUp(x)
  {
    RoundsToUnique(HalfUp, x, Round(HalfUp, x), RoundHalfUp(x));
  }

  /** Under HalfEven, Round is Python's round. */
  lemma RoundIsHalfEven(x: real)
    ensures Round(HalfEven, x) == RoundHalfEven(x)
  {
    RoundsToUnique(HalfEven, x, Round(HalfEven, x), RoundHalfEven(x));
  }

  /** Each rule rounds a real to exactly one integer. */
  lemma RoundsToUnique(m: Rounding, x: real, a: int, b: int)
    requires RoundsTo(m, x, a) && RoundsTo(m, x, b)
    ensures a == b
  {
  }

  /** The two roundings only disagree on exact halves. */
  lemma RoundingsAgreeOffHalf(x: real)
    requires !OnHalf(x)
    ensures RoundHalfUp(x) == RoundHalfEven(x)
  {
  }

  /** Rounding to an integer never goes below an integer lower bound. */
  lemma RoundAtLeast(m: Rounding, x: real, lo: int)
    requires lo as real <= x
    ensures lo <= Round(m, x)
  {
  }

  /** Rounding an integer gives it back. */
  lemma RoundIntegral(m: Rounding, n: int)
    ensures Round(m, n as real) == n
  {
    assert (n as real + 0.5).Floor == n;
    assert (n as real).Floor == n;
  }

  /** Rounding is monotone. */
  lemma RoundMonotone(m: Rounding, x: real, y: real)
    requires x <= y
    ensures Round(m, x) <= Round(m, y)
  {
    if m.HalfEven? {
      var fx, fy := x.Floor, y.Floor;
      if fx == fy {
      } else {
        assert fx < fy;
      }
    }
  }

  /** Conversion of a number to an integer by dropping its fraction, as
      Python's int() and the first step of JavaScript's ToInt32 do. */
  function Trunc(x: real): (r: int)
    ensures 0.0 <= x ==> 0 <= r && r as real <= x < r as real + 1.0
    ensures x < 0.0 ==> r <= 0 && r as real - 1.0 < x <= r as real
  {
    if x >= 0.0 then x.Floor else -((-x).Floor)
  }

  /** JavaScript's `n | 0` on an integer-valued number: wrap into the
      signed 32-bit range. */
  function ToInt32(n: int): (r: int)
    ensures -TwoTo31 <= r < TwoTo31
    ensures (n - r) % TwoTo32 == 0
    ensures -TwoTo31 <= n < TwoTo31 ==> r == n
  {
    (n + TwoTo31) % TwoTo32 - TwoTo31
  }
}

=== FILE: optional.dfy ===
/** A value that may be absent: a missing record field, or JavaScript's
    `?? null` on an array index past the end. */
module Optional {

  datatype Option<+T> = None | Some(value: T) {

    /** The value, or `default` when there is none. */
    function GetOr(default: T): T {
      match this
      case Some(v) => v
      case None => default
    }
  }
}

=== FILE: reviewview.dfy ===
/**
  The review screen: the queue of due cards, sorted by due time with ties
  kept in deck order (JavaScript's Array.prototype.sort is stable), and the
  position in that queue that `next()` advances after every rating.
 */
module ReviewView {
  import opened Numeric
  import opened Optional
  import opened Seqs
  import opened CardDeck

  /** Non-decreasing by due time. */
  predicate SortedByDue(s: seq<Card>) {
    forall i, j :: 0 <= i < j < |s| ==> s[i].dueAt <= s[j].dueAt
  }

  /** The cards of `s` due exactly at `k`, in their order in `s`. Two
      arrangements of the same cards in which every such class appears in
      the same order are what a stable sort relates. */
  function WithDueAt(s: seq<Card>, k: int): seq<Card> {
    Filter((c: Card) => c.dueAt == k, s)
  }

  /** A card due no later than every card of a sorted sequence can go in
      front of it. */
  lemma SortedCons(x: Card, t: seq<Card>)
    requires SortedByDue(t)
    requires forall i :: 0 <= i < |t| ==> x.dueAt <= t[i].dueAt
    ensures SortedByDue([x] + t)
  {
  }

  /** Put `c` in front of the first card of `s` due no earlier than it. */
  function Insert(c: Card, s: seq<Card>): (r: seq<Card>)
    ensures multiset(r) == multiset(s) + multiset{c}
  {
    if s == [] then [c]
    else if c.dueAt <= s[0].dueAt then [c] + s
    else
      assert s == [s[0]] + s[1..];
      [s[0]] + Insert(c, s[1..])
  }

  /** Inserting into a sorted sequence keeps it sorted. */
  lemma {:induction false} InsertSorted(c: Card, s: seq<Card>)
    requires SortedByDue(s)
    ensures SortedByDue(Insert(c, s))
    decreases |s|
  {
    if s == [] || c.dueAt <= s[0].dueAt {
      SortedCons(c, s);
    } else {
      var t := Insert(c, s[1..]);
      InsertSorted(c, s[1..]);
      forall i | 0 <= i < |t| ensures s[0].dueAt <= t[i].dueAt {
        assert t[i] in multiset(t);
        if t[i] != c {
          assert t[i] in multiset(s[1..]);
          var j :| 0 <= j < |s[1..]| && s[1..][j] == t[i];
          assert s[j + 1] == t[i];
        }
      }
      SortedCons(s[0], t);
    }
  }

  /** `.sort((a, b) => a.dueAt - b.dueAt)`, as an insertion sort. */
  function SortByDue(s: seq<Card>): (r: seq<Card>)
    ensures SortedByDue(r)
    ensures multiset(r) == multiset(s)
  {
    if s == [] then []
    else
      assert s == [s[0]] + s[1..];
      var t := SortByDue(s[1..]);
      InsertSorted(s[0], t);
      Insert(s[0], t)
  }

  /** The class of `k` in a sequence with a known first card. */
  lemma WithDueAtCons(c: Card, s: seq<Card>, k: int)
    ensures WithDueAt([c] + s, k) == if c.dueAt == k then [c] + WithDueAt(s, k) else WithDueAt(s, k)
  {
    FilterCons((x: Card) => x.dueAt == k, c, s);
  }

  /** One step of `InsertClasses`: `c` goes behind the first card. */
  lemma InsertBehind(c: Card, s: seq<Card>, k: int)
    requires s != [] && s[0].dueAt < c.dueAt
    requires WithDueAt(Insert(c, s[1..]), k) == if c.dueAt == k then [c] + WithDueAt(s[1..], k) else WithDueAt(s[1..], k)
    ensures WithDueAt(Insert(c, s), k) == if c.dueAt == k then [c] + WithDueAt(s, k) else WithDueAt(s, k)
  {
    var t := Insert(c, s[1..]);
    var u := Insert(c, s);
    assert u == [s[0]] + t;
    assert u[0] == s[0] && u[1..] == t;
    assert WithDueAt(u, k) == if s[0].dueAt == k then [s[0]] + WithDueAt(t, k) else WithDueAt(t, k);
    assert WithDueAt(s, k) == if s[0].dueAt == k then [s[0]] + WithDueAt(s[1..], k) else WithDueAt(s[1..], k);
  }

  /** Inserting `c` adds it at the front of its own class and leaves every
      other class alone. */
  lemma {:induction false} InsertClasses(c: Card, s: seq<Card>, k: int)
    ensures WithDueAt(Insert(c, s), k) == if c.dueAt == k then [c] + WithDueAt(s, k) else WithDueAt(s, k)
    decreases |s|
  {
    if s == [] || c.dueAt <= s[0].dueAt {
      assert Insert(c, s) == [c] + s;
      WithDueAtCons(c, s, k);
    } else {
      InsertClasses(c, s[1..], k);
      InsertBehind(c, s, k);
    }
  }

  /** The sort is stable: cards with equal due times keep their order. */
  lemma {:induction false} SortByDueStable(s: seq<Card>, k: int)
    ensures WithDueAt(SortByDue(s), k) == WithDueAt(s, k)
    decreases |s|
  {
    if s != [] {
      SortByDueStable(s[1..], k);
      InsertClasses(s[0], SortByDue(s[1..]), k);
      WithDueAtCons(s[0], s[1..], k);
      assert [s[0]] + s[1..] == s;
    }
  }

  /** A non-empty sequence has a non-empty class: its first card's. */
  lemma HeadOfClass(t: seq<Card>)
    requires t != []
    ensures WithDueAt(t, t[0].dueAt) == [t[0]] + WithDueAt(t[1..], t[0].dueAt)
  {
    WithDueAtCons(t[0], t[1..], t[0].dueAt);
    assert [t[0]] + t[1..] == t;
  }

  /** Every card of a sorted sequence is due no earlier than its first. */
  lemma SortedHeadIsLeast(t: seq<Card>, x: Card)
    requires SortedByDue(t) && x in t
    ensures t[0].dueAt <= x.dueAt
  {
    var i :| 0 <= i < |t| && t[i] == x;
    if i > 0 {
      assert t[0].dueAt <= t[i].dueAt;
    }
  }

  /** Equal classes put the same card first in two sorted sequences. */
  lemma SameHead(t: seq<Card>, u: seq<Card>)
    requires t != [] && u != []
    requires SortedByDue(t) && SortedByDue(u)
    requires forall k :: WithDueAt(t, k) == WithDueAt(u, k)
    ensures t[0] == u[0]
  {
    var m, n := t[0].dueAt, u[0].dueAt;
    HeadOfClass(t);
    HeadOfClass(u);
    FilterMembership((x: Card) => x.dueAt == n, t, u[0]);
    FilterMembership((x: Card) => x.dueAt == m, u, t[0]);
    assert u[0] in WithDueAt(t, n);
    SortedHeadIsLeast(t, u[0]);
    assert t[0] in WithDueAt(u, m);
    SortedHeadIsLeast(u, t[0]);
    assert WithDueAt(t, m)[0] == t[0];
  }

  /** Two sequences with the same first card and the same classes have
      tails with the same classes. */
  lemma SameTailClasses(t: seq<Card>, u: seq<Card>, k: int)
    requires t != [] && u != [] && t[0] == u[0]
    requires WithDueAt(t, k) == WithDueAt(u, k)
    ensures WithDueAt(t[1..], k) == WithDueAt(u[1..], k)
  {
    WithDueAtCons(t[0], t[1..], k);
    WithDueAtCons(u[0], u[1..], k);
    assert [t[0]] + t[1..] == t;
    assert [u[0]] + u[1..] == u;
    if t[0].dueAt == k {
      assert ([t[0]] + WithDueAt(t[1..], k))[1..] == WithDueAt(t[1..], k);
      assert ([u[0]] + WithDueAt(u[1..], k))[1..] == WithDueAt(u[1..], k);
    }
  }

  /** The tail of a sorted sequence is sorted. */
  lemma SortedTail(t: seq<Card>)
    requires t != [] && SortedByDue(t)
    ensures SortedByDue(t[1..])
  {
  }

  /** Sortedness and stability pin the result down: two sorted sequences
      with the same classes are equal. So any stable sort of the due cards
      gives exactly the queue computed here. */
  lemma {:induction false} SortedWithSameClassesEqual(t: seq<Card>, u: seq<Card>)
    requires SortedByDue(t) && SortedByDue(u)
    requires forall k :: WithDueAt(t, k) == WithDueAt(u, k)
    ensures t == u
    decreases |t|
  {
    if t != [] && u != [] {
      SameHead(t, u);
      forall k ensures WithDueAt(t[1..], k) == WithDueAt(u[1..], k) {
        SameTailClasses(t, u, k);
      }
      SortedTail(t);
      SortedTail(u);
      SortedWithSameClassesEqual(t[1..], u[1..]);
      assert t == [t[0]] + t[1..];
      assert u == [u[0]] + u[1..];
    } else if t != [] {
      HeadOfClass(t);
    } else if u != [] {
      HeadOfClass(u);
    }
  }

  /** `dueCards`: the cards in the review pile whose time has come,
      earliest due first. Its length is the header's due count. */
  function DueQueue(cards: seq<Card>, now: int): (r: seq<Card>)
    ensures forall i :: 0 <= i < |r| ==> IsDue(r[i], now)
    ensures forall c :: c in r <==> c in cards && IsDue(c, now)
    ensures multiset(r) == multiset(DueCards(cards, now))
    ensures SortedByDue(r)
    ensures |r| == ComputeStats(cards, now).due
  {
    var due := DueCards(cards, now);
    var r := SortByDue(due);
    assert |r| == |due| by {
      assert |multiset(r)| == |multiset(due)|;
    }
    assert forall c :: c in r <==> c in cards && IsDue(c, now) by {
      forall c ensures c in r <==> c in cards && IsDue(c, now) {
        assert c in r <==> c in multiset(due);
        FilterMembership((x: Card) => IsDue(x, now), cards, c);
      }
    }
    r
  }

  /** Cards due at the same moment are reviewed in deck order. */
  lemma DueQueueStable(cards: seq<Card>, now: int, k: int)
    ensures WithDueAt(DueQueue(cards, now), k) == WithDueAt(DueCards(cards, now), k)
  {
    SortByDueStable(DueCards(cards, now), k);
  }

  /** The queue is the one arrangement of the due cards that is sorted and
      stable. */
  lemma DueQueueUnique(cards: seq<Card>, now: int, q: seq<Card>)
    requires SortedByDue(q)
    requires forall k :: WithDueAt(q, k) == WithDueAt(DueCards(cards, now), k)
    ensures q == DueQueue(cards, now)
  {
    forall k ensures WithDueAt(DueQueue(cards, now), k) == WithDueAt(q, k) {
      DueQueueStable(cards, now, k);
    }
    SortedWithSameClassesEqual(DueQueue(cards, now), q);
  }

  // ---------------------------------------------------------------------------
  // Position in the queue

  /** The view's local state: the queue position and whether the answer
      is shown. */
  datatype Session = Session(index: int, showBack: bool)

  /** `dueCards[idx] ?? null`. */
  function Current(queue: seq<Card>, index: int): (r: Option<Card>)
    ensures r.None? <==> index < 0 || |queue| <= index
    ensures 0 <= index < |queue| ==> r == Some(queue[index])
    ensures r.Some? ==> r.value in queue
  {
    if 0 <= index < |queue| then Some(queue[index]) else None
  }

  /** The index update inside `next()`. */
  function Advance(index: int, len: int): (r: int)
    ensures -1 <= index && len > 0 ==> 0 <= r < len
    ensures -1 <= index ==> 0 <= r
    ensures index + 1 < len ==> r == index + 1
    ensures len <= index + 1 ==> r == 0
  {
    var n := index + 1;
    if n >= len then 0 else n
  }

  /** `next()`: hide the answer and move on, wrapping to the start. */
  function Next(s: Session, len: int): (r: Session)
    ensures !r.showBack
    ensures r.index == Advance(s.index, len)
    ensures -1 <= s.index && len > 0 ==> 0 <= r.index < len
  {
    Session(Advance(s.index, len), false)
  }

  /** `k` calls of `next()` on a queue of length `len`. */
  function AdvanceTimes(index: int, len: int, k: nat): int {
    if k == 0 then index else Advance(AdvanceTimes(index, len, k - 1), len)
  }

  /** Steps taken one after another compose. */
  lemma {:induction false} AdvanceTimesAdd(index: int, len: int, a: nat, b: nat)
    ensures AdvanceTimes(index, len, a + b) == AdvanceTimes(AdvanceTimes(index, len, a), len, b)
  {
    if b > 0 {
      AdvanceTimesAdd(index, len, a, b - 1);
    }
  }

  /** Before the end of the queue, `k` steps move `k` places forward. */
  lemma {:induction false} AdvanceRun(index: int, len: int, k: nat)
    requires 0 <= index && index + k < len
    ensures AdvanceTimes(index, len, k) == index + k
  {
    if k > 0 {
      AdvanceRun(index, len, k - 1);
    }
  }

  /** Stepping past the last card goes back to the first. */
  lemma AdvanceWraps(index: int, len: int)
    requires 0 <= index < len
    ensures AdvanceTimes(index, len, len - index) == 0
  {
    AdvanceRun(index, len, len - index - 1);
  }

  /** On a queue that does not change, `len` calls of `next()` come back to
      the same card. */
  lemma AdvanceCycles(index: int, len: int)
    requires 0 <= index < len
    ensures AdvanceTimes(index, len, len) == index
  {
    AdvanceWraps(index, len);
    AdvanceTimesAdd(index, len, len - index, index);
    AdvanceRun(0, len, index);
  }

  /** How many calls of `next()` lead from `index` to `target`. */
  function StepsTo(index: int, target: int, len: int): int {
    if index <= target then target - index else len - index + target
  }

  /** Every card of an unchanging queue comes up within `len` calls of
      `next()`. */
  lemma EveryCardComesUp(index: int, len: int, target: int)
    requires 0 <= index < len && 0 <= target < len
    ensures 0 <= StepsTo(index, target, len) < len
    ensures AdvanceTimes(index, len, StepsTo(index, target, len)) == target
  {
    if index <= target {
      AdvanceRun(index, len, target - index);
    } else {
      AdvanceWraps(index, len);
      AdvanceTimesAdd(index, len, len - index, target);
      AdvanceRun(0, len, target);
    }
  }

  // ---------------------------------------------------------------------------
  // Rating from the review screen

  /** The deck and the review screen's state together. */
  datatype Screen = Screen(cards: seq<Card>, session: Session)

  /** What the screen shows: the current card of the queue recomputed from
      the deck, or "No cards due" (None). */
  function Shown(sc: Screen, now: int): Option<Card> {
    Current(DueQueue(sc.cards, now), sc.session.index)
  }

  /** A rating button as the source wires it: rate the current card, then
      call `next()`, whose wrap-around compares against the length of the
      queue the click was rendered with, not the queue after the rating. */
  function ClickRatingAsWritten(sc: Screen, rating: Rating, now: int): (r: Screen)
    requires Shown(sc, now).Some?
    ensures r.cards == RateCard(sc.cards, Shown(sc, now).value.id, rating, now)
    ensures r.session == Next(sc.session, |DueQueue(sc.cards, now)|)
    ensures 0 <= r.session.index < |DueQueue(sc.cards, now)| && !r.session.showBack
  {
    var queue := DueQueue(sc.cards, now);
    var current := Shown(sc, now).value;
    Screen(RateCard(sc.cards, current.id, rating, now), Next(sc.session, |queue|))
  }

  /** The same click with the wrap-around taken against the queue recomputed
      after the rating. */
  function ClickRating(sc: Screen, rating: Rating, now: int): (r: Screen)
    requires Shown(sc, now).Some?
    ensures r.cards == RateCard(sc.cards, Shown(sc, now).value.id, rating, now)
    ensures r.session == Next(sc.session, |DueQueue(r.cards, now)|)
    ensures !r.session.showBack
    ensures DueQueue(r.cards, now) != [] ==> Shown(r, now).Some?
  {
    var current := Shown(sc, now).value;
    var cards := RateCard(sc.cards, current.id, rating, now);
    Screen(cards, Next(sc.session, |DueQueue(cards, now)|))
  }

  /** The two cards of the example below, both in the review pile, due at
      0 and 1 ms. */
  const CardA: Card := Card("a", "q1", "a1", None, true, 0, 0)
  const CardB: Card := Card("b", "q2", "a2", None, true, 1, 0)

  lemma ExampleDueBefore()
    ensures DueCards([CardA, CardB], 10) == [CardA, CardB]
  {
    FilterCons((x: Card) => IsDue(x, 10), CardA, [CardB]);
    FilterCons((x: Card) => IsDue(x, 10), CardB, []);
  }

  lemma ExampleQueueBefore()
    ensures DueQueue([CardA, CardB], 10) == [CardA, CardB]
  {
    ExampleDueBefore();
    assert SortByDue([CardB]) == [CardB] by { assert [CardB][1..] == []; }
    assert SortByDue([CardA, CardB]) == Insert(CardA, [CardB]) by {
      assert [CardA, CardB][1..] == [CardB];
    }
  }

  lemma ExampleRating()
    ensures RateCard([CardA, CardB], "a", Good, 10) == [CardA.(intervalDays := 2, dueAt := 10 + 2 * DayMs), CardB]
  {
  }

  lemma ExampleQueueAfter()
    ensures DueQueue([CardA.(intervalDays := 2, dueAt := 10 + 2 * DayMs), CardB], 10) == [CardB]
  {
    var a2 := CardA.(intervalDays := 2, dueAt := 10 + 2 * DayMs);
    assert DueCards([a2, CardB], 10) == [CardB] by {
      FilterCons((x: Card) => IsDue(x, 10), a2, [CardB]);
      FilterCons((x: Card) => IsDue(x, 10), CardB, []);
    }
    assert SortByDue([CardB]) == [CardB] by { assert [CardB][1..] == []; }
  }

  /** Two cards due, the first rated "good": the rated card leaves the
      queue, the index moves to 1 in a queue that now has one card, and the
      screen says nothing is due while the second card still is. */
  lemma StaleLengthHidesDueCard()
    ensures var after := ClickRatingAsWritten(Screen([CardA, CardB], Session(0, true)), Good, 10);
      && DueQueue(after.cards, 10) == [CardB]
      && Shown(after, 10).None?
  {
    ExampleQueueBefore();
    ExampleRating();
    ExampleQueueAfter();
  }
}

=== FILE: seqs.dfy ===
/**
  Order-preserving filtering of sequences (JavaScript's Array.prototype.filter)
  and the subsequence relation it establishes.
 */
module Seqs {

  /** The elements of `s` that satisfy `p`, in their original order. */
  function Filter<T>(p: T -> bool, s: seq<T>): (r: seq<T>)
    ensures |r| <= |s|
    ensures forall i :: 0 <= i < |r| ==> p(r[i])
    ensures multiset(r) <= multiset(s)
  {
    if s == [] then []
    else
      assert s == [s[0]] + s[1..];
      if p(s[0]) then [s[0]] + Filter(p, s[1..])
      else Filter(p, s[1..])
  }

  /** The positions of `s` whose element satisfies `p`. */
  ghost function Positions<T>(p: T -> bool, s: seq<T>): set<int> {
    set i | 0 <= i < |s| && p(s[i])
  }

  /** Filtering keeps one element per satisfying position: what
      `filter(...).length` counts. */
  lemma {:induction false} FilterSize<T>(p: T -> bool, s: seq<T>)
    ensures |Filter(p, s)| == |Positions(p, s)|
    decreases |s|
  {
    if s == [] {
      assert Positions(p, s) == {};
    } else {
      var a, x := s[..|s| - 1], s[|s| - 1];
      assert s == a + [x];
      FilterSize(p, a);
      FilterSnocSize(p, a, x);
      PositionsSnoc(p, a, x);
    }
  }

  /** Appending one element adds one to the filtered length exactly when
      the element is kept. */
  lemma FilterSnocSize<T>(p: T -> bool, a: seq<T>, x: T)
    ensures |Filter(p, a + [x])| == |Filter(p, a)| + if p(x) then 1 else 0
  {
    FilterAppend(p, a, [x]);
    FilterCons(p, x, []);
    assert [x] + [] == [x];
  }

  /** The positions of a sequence with one element appended. */
  lemma PositionsSnoc<T>(p: T -> bool, a: seq<T>, x: T)
    ensures Positions(p, a + [x]) == Positions(p, a) + (if p(x) then {|a|} else {})
  {
    var s := a + [x];
    forall i ensures i in Positions(p, s) <==> i in Positions(p, a) || (p(x) && i == |a|) {
      if 0 <= i < |a| {
        assert s[i] == a[i];
      }
    }
  }

  /** `a` can be obtained from `b` by deleting elements (matched greedily,
      which finds a matching whenever one exists). */
  predicate IsSubsequence<T(==)>(a: seq<T>, b: seq<T>)
    decreases |b|
  {
    a == [] ||
    (b != [] &&
     if a[0] == b[0] then IsSubsequence(a[1..], b[1..]) else IsSubsequence(a, b[1..]))
  }

  /** Filtering keeps exactly the elements that satisfy the predicate. */
  lemma {:induction false} FilterMembership<T>(p: T -> bool, s: seq<T>, x: T)
    ensures x in Filter(p, s) <==> x in s && p(x)
    decreases |s|
  {
    if s != [] {
      FilterMembership(p, s[1..], x);
      assert s == [s[0]] + s[1..];
    }
  }

  /** Filtering keeps every copy of a kept element and drops every copy of
      a dropped one. */
  lemma {:induction false} FilterCount<T>(p: T -> bool, s: seq<T>, x: T)
    ensures multiset(Filter(p, s))[x] == if p(x) then multiset(s)[x] else 0
    decreases |s|
  {
    if s != [] {
      var t := s[1..];
      FilterCount(p, t, x);
      assert s == [s[0]] + t;
      assert multiset(s) == multiset{s[0]} + multiset(t);
      if p(s[0]) {
        assert Filter(p, s) == [s[0]] + Filter(p, t);
        assert multiset(Filter(p, s)) == multiset{s[0]} + multiset(Filter(p, t));
      } else {
        assert Filter(p, s) == Filter(p, t);
      }
    }
  }

  /** Filtering preserves the order of the kept elements. */
  lemma {:induction false} FilterIsSubsequence<T>(p: T -> bool, s: seq<T>)
    ensures IsSubsequence(Filter(p, s), s)
    decreases |s|
  {
    if s != [] {
      FilterIsSubsequence(p, s[1..]);
      var r := Filter(p, s[1..]);
      if p(s[0]) {
        assert Filter(p, s) == [s[0]] + r;
      } else {
        SubsequenceSkip(r, s);
      }
    }
  }

  /** Every sequence is a subsequence of itself. */
  lemma {:induction false} SubsequenceRefl<T>(s: seq<T>)
    ensures IsSubsequence(s, s)
    decreases |s|
  {
    if s != [] {
      SubsequenceRefl(s[1..]);
    }
  }

  /** A subsequence of the tail is a subsequence of the whole. */
  lemma {:induction false} SubsequenceSkip<T>(a: seq<T>, b: seq<T>)
    requires b != []
    requires IsSubsequence(a, b[1..])
    ensures IsSubsequence(a, b)
    decreases |b|, |a|
  {
    if a != [] && a[0] == b[0] {
      // The greedy matcher takes b[0]; a[1..] still fits into b[1..].
      SubsequenceDropHead(a, b[1..]);
    }
  }

  /** Dropping the first element of a subsequence keeps it a subsequence. */
  lemma {:induction false} SubsequenceDropHead<T>(a: seq<T>, b: seq<T>)
    requires a != []
    requires IsSubsequence(a, b)
    ensures IsSubsequence(a[1..], b)
    decreases |b|, |a|
  {
    assert b != [];
    if a[0] == b[0] {
      SubsequenceSkip(a[1..], b);
    } else {
      SubsequenceDropHead(a, b[1..]);
      SubsequenceSkip(a[1..], b);
    }
  }

  /** When every element satisfies the predicate, filtering changes nothing. */
  lemma {:induction false} FilterKeepsAll<T>(p: T -> bool, s: seq<T>)
    requires forall i :: 0 <= i < |s| ==> p(s[i])
    ensures Filter(p, s) == s
    decreases |s|
  {
    if s != [] {
      FilterKeepsAll(p, s[1..]);
    }
  }

  /** Filtering distributes over concatenation. */
  lemma {:induction false} FilterAppend<T>(p: T -> bool, a: seq<T>, b: seq<T>)
    ensures Filter(p, a + b) == Filter(p, a) + Filter(p, b)
    decreases |a|
  {
    if a != [] {
      assert (a + b)[0] == a[0];
      assert (a + b)[1..] == a[1..] + b;
      FilterAppend(p, a[1..], b);
      if p(a[0]) {
        calc {
          Filter(p, a + b);
          [a[0]] + Filter(p, a[1..] + b);
          [a[0]] + (Filter(p, a[1..]) + Filter(p, b));
          ([a[0]] + Filter(p, a[1..])) + Filter(p, b);
        }
      }
    } else {
      assert a + b == b;
    }
  }

  /** A stronger predicate keeps no more elements than a weaker one. */
  lemma {:induction false} FilterStrongerIsShorter<T>(p: T -> bool, q: T -> bool, s: seq<T>)
    requires forall i :: 0 <= i < |s| && p(s[i]) ==> q(s[i])
    ensures |Filter(p, s)| <= |Filter(q, s)|
    decreases |s|
  {
    if s != [] {
      FilterStrongerIsShorter(p, q, s[1..]);
    }
  }

  /** Filtering a sequence with a known first element. */
  lemma FilterCons<T>(p: T -> bool, x: T, s: seq<T>)
    ensures Filter(p, [x] + s) == if p(x) then [x] + Filter(p, s) else Filter(p, s)
  {
    assert ([x] + s)[1..] == s;
  }

  /** If, position by position, `b` satisfies `p` only where `a` does, then
      filtering `b` keeps no more elements than filtering `a`. */
  lemma {:induction false} FilterPointwiseShorter<T>(p: T -> bool, a: seq<T>, b: seq<T>)
    requires |a| == |b|
    requires forall i :: 0 <= i < |b| && p(b[i]) ==> p(a[i])
    ensures |Filter(p, b)| <= |Filter(p, a)|
    decreases |a|
  {
    if a != [] {
      FilterPointwiseShorter(p, a[1..], b[1..]);
    }
  }
}

=== FILE: sm2.dfy ===
/**
  The backend's SM-2-style review updater, which exists as two near-identical
  twins: `sm2Update` (JavaScript) and `sm2_update` (Python). One review maps
  the stored scheduling fields of a card, a quality grade and the current
  time to a fresh scheduling record.

  Both twins share one core, `Next`; they differ only in how they read the
  stored fields and the grade, in how they round (JavaScript's Math.round
  rounds halves up, Python's round rounds them to even), and in the range of
  dates they can represent (a JavaScript Date reaches 100,000,000 days
  either side of 1970, a Python datetime only the years 1 to 9999). Whenever the
  Python twin succeeds on 32-bit inputs without an exact-half rounding, the
  JavaScript twin returns the same record (`TwinsAgree`).
 */
module Sm2 {
  import opened Numeric
  import opened Optional

  const DefaultEase: real := 2.5
  const MinEase: real := 1.3

  /** The three stored fields the updater reads. `None` is a missing field
      (and, for JavaScript's repetitions and interval, a non-finite one). */
  datatype StoredCard = StoredCard(easeFactor: Option<real>, repetitions: Option<int>, intervalDays: Option<int>)

  /** The scheduling state after defaults have been filled in. */
  datatype State = State(easeFactor: real, repetitions: int, intervalDays: int)

  /** A quality grade after clamping. */
  type Grade = q: int | 0 <= q <= 5

  /** What one review returns: times are milliseconds since the epoch. */
  datatype Review = Review(easeFactor: real, repetitions: int, intervalDays: int, dueDate: int, lastReviewed: int)

  /** A card that has never been reviewed. */
  const NewCard: State := State(DefaultEase, 0, 0)

  /** JavaScript `clampInt`: the value is first turned into a 32-bit integer
      (`Number(v) | 0`), then clamped. */
  function ClampInt(v: real, lo: int, hi: int): (r: int)
    requires lo <= hi
    ensures lo <= r <= hi
    ensures lo <= ToInt32(Trunc(v)) <= hi ==> r == ToInt32(Trunc(v))
    ensures ToInt32(Trunc(v)) < lo ==> r == lo
    ensures hi < ToInt32(Trunc(v)) ==> r == hi
  {
    var w := ToInt32(Trunc(v));
    if w < lo then lo else if w > hi then hi else w
  }

  /** The grade as the JavaScript twin reads it. */
  function QualityJs(quality: real): (q: Grade)
    ensures -TwoTo31 as real < quality < TwoTo31 as real ==>
              q == if Trunc(quality) < 0 then 0 else if Trunc(quality) > 5 then 5 else Trunc(quality)
  {
    ClampInt(quality, 0, 5)
  }

  /** The grade as the Python twin reads it: `int()` then clamp, no wrap. */
  function QualityPy(quality: real): (q: Grade)
    ensures quality < 0.0 ==> q == 0
    ensures 5.0 <= quality ==> q == 5
    ensures 0.0 <= quality < 5.0 ==> q as real <= quality < q as real + 1.0
  {
    var q := Trunc(quality);
    if q < 0 then 0 else if q > 5 then 5 else q
  }

  /** The stored fields as the JavaScript twin reads them: a missing ease is
      2.5, a missing count or interval is 0, and present ones go through `| 0`. */
  function ReadJs(c: StoredCard): (s: State)
    ensures s.easeFactor == c.easeFactor.GetOr(DefaultEase)
    ensures c.repetitions.None? ==> s.repetitions == 0
    ensures c.intervalDays.None? ==> s.intervalDays == 0
    ensures c.repetitions.Some? ==> s.repetitions == ToInt32(c.repetitions.value)
    ensures c.intervalDays.Some? ==> s.intervalDays == ToInt32(c.intervalDays.value)
    ensures -TwoTo31 <= s.repetitions < TwoTo31 && -TwoTo31 <= s.intervalDays < TwoTo31
  {
    State(
      c.easeFactor.GetOr(DefaultEase),
      if c.repetitions.Some? then ToInt32(c.repetitions.value) else 0,
      if c.intervalDays.Some? then ToInt32(c.intervalDays.value) else 0)
  }

  /** The stored fields as the Python twin reads them: `card.get(key, default)`. */
  function ReadPy(c: StoredCard): (s: State)
    ensures s.easeFactor == c.easeFactor.GetOr(DefaultEase)
    ensures s.repetitions == c.repetitions.GetOr(0)
    ensures s.intervalDays == c.intervalDays.GetOr(0)
  {
    State(c.easeFactor.GetOr(DefaultEase), c.repetitions.GetOr(0), c.intervalDays.GetOr(0))
  }

  /** The ease after a review with grade `q`, before rounding for storage. */
  function EaseAfter(ef: real, q: Grade): (r: real)
    ensures r >= MinEase
    ensures r == MinEase || r == ef + 0.1 - (5 - q) as real * (0.08 + (5 - q) as real * 0.02)
    ensures q == 5 ==> r >= ef + 0.1 && (ef >= MinEase - 0.1 ==> r == ef + 0.1)
    ensures q == 4 ==> r >= ef && (ef >= MinEase ==> r == ef)
    ensures q <= 3 ==> r < ef || r == MinEase
  {
    var d := (5 - q) as real;
    var e := ef + 0.1 - d * (0.08 + d * 0.02);
    if e < MinEase then MinEase else e
  }

  /** The ease as stored: rounded to four decimal places. */
  function StoredEase(m: Rounding, x: real): (r: real)
    // A whole number of ten-thousandths, the nearest one to `x` under the
    // twin's rounding rule.
    ensures (r * 10000.0).Floor as real == r * 10000.0
    ensures RoundsTo(m, x * 10000.0, (r * 10000.0).Floor)
    ensures x - 0.00005 <= r <= x + 0.00005
    ensures x >= MinEase ==> r >= MinEase
    ensures (x * 10000.0).Floor as real == x * 10000.0 ==> r == x
  {
    var y := x * 10000.0;
    var n := Round(m, y);
    assert y.Floor as real == y ==> n as real == y by {
      if y.Floor as real == y {
        RoundIntegral(m, y.Floor);
      }
    }
    assert x >= MinEase ==> n >= 13000 by {
      if x >= MinEase {
        RoundAtLeast(m, y, 13000);
      }
    }
    var r := n as real / 10000.0;
    assert r * 10000.0 == n as real && (n as real).Floor == n;
    r
  }

  /** The interval that a grown interval scales: the previous one, or 6
      when there was none. */
  function Base(s: State): (b: int)
    ensures b > 0
  {
    if s.intervalDays > 0 then s.intervalDays else 6
  }

  /** The interval after a successful review that is neither the first nor
      the second of a streak: the base scaled by the ease read before this
      review, rounded. */
  function GrownInterval(m: Rounding, s: State): (r: int)
    ensures RoundsTo(m, Base(s) as real * s.easeFactor, r)
  {
    Round(m, Base(s) as real * s.easeFactor)
  }

  /** Rounding a day count scaled by a factor of at least one never gives
      fewer days. */
  lemma RoundScaledAtLeast(m: Rounding, b: int, e: real, r: int)
    requires b >= 0 && e >= 1.0 && RoundsTo(m, b as real * e, r)
    ensures r >= b
  {
    assert b as real * e - b as real == b as real * (e - 1.0);
  }

  /** One review. The grade has been clamped and the fields read. */
  function Next(s: State, q: Grade, m: Rounding, now: int): (r: Review)
    // A lapse forgets the streak and schedules a review tomorrow.
    ensures q < 3 ==> r.repetitions == 0 && r.intervalDays == 1
    // A success extends the streak: 1 day, then 6 days, then growth by the ease.
    ensures q >= 3 ==> r.repetitions == s.repetitions + 1
    ensures q >= 3 && s.repetitions == 0 ==> r.intervalDays == 1
    ensures q >= 3 && s.repetitions == 1 ==> r.intervalDays == 6
    ensures q >= 3 && s.repetitions != 0 && s.repetitions != 1 ==> r.intervalDays == GrownInterval(m, s)
    ensures q >= 3 && s.repetitions != 0 && s.repetitions != 1 && s.easeFactor >= 1.0 ==>
              r.intervalDays >= Base(s)
    // The new ease is the formula's value stored to four decimals; it never
    // drops below its floor, whatever was stored.
    ensures r.easeFactor == StoredEase(m, EaseAfter(s.easeFactor, q))
    ensures r.easeFactor >= MinEase
    // The card is due exactly `intervalDays` whole days after the review.
    ensures r.dueDate - now == r.intervalDays * DayMs && r.lastReviewed == now
  {
    assert s.easeFactor >= 1.0 ==> GrownInterval(m, s) >= Base(s) by {
      if s.easeFactor >= 1.0 {
        RoundScaledAtLeast(m, Base(s), s.easeFactor, GrownInterval(m, s));
      }
    }
    var reps := if q < 3 then 0 else s.repetitions + 1;
    var interval :=
      if q < 3 then 1
      else if reps == 1 then 1
      else if reps == 2 then 6
      else GrownInterval(m, s);
    Review(StoredEase(m, EaseAfter(s.easeFactor, q)), reps, interval, now + interval * DayMs, now)
  }

  /** The range of a JavaScript Date: 8.64e15 ms either side of the epoch.
      Outside it a Date is invalid and `toISOString` throws a RangeError. */
  const MaxJsTime: int := 8_640_000_000_000_000

  /** The range of a Python datetime, 0001-01-01T00:00:00 to
      9999-12-31T23:59:59.999, in ms since the epoch. Date arithmetic that
      leaves it raises OverflowError. */
  const MinPyTime: int := -62_135_596_800_000
  const MaxPyTime: int := 253_402_300_799_999

  predicate JsTime(t: int) {
    -MaxJsTime <= t <= MaxJsTime
  }

  predicate PyTime(t: int) {
    MinPyTime <= t <= MaxPyTime
  }

  /** What an update call gives back: the new fields, or the exception the
      date arithmetic or formatting raises. */
  datatype Outcome = Updated(review: Review) | DateOutOfRange

  /** `sm2Update(card, quality, now)` of the JavaScript twin. The due date
      `new Date(now + interval days)` is formatted with `toISOString`, which
      throws when the date lies outside the Date range. */
  function UpdateJs(c: StoredCard, quality: real, now: int): (r: Outcome)
    ensures r.DateOutOfRange? <==>
      !JsTime(now) || !JsTime(Next(ReadJs(c), QualityJs(quality), HalfUp, now).dueDate)
    ensures r.Updated? ==> r.review == Next(ReadJs(c), QualityJs(quality), HalfUp, now)
    ensures r.Updated? ==>
      && r.review.easeFactor >= MinEase && r.review.lastReviewed == now
      && r.review.dueDate == now + r.review.intervalDays * DayMs
      && JsTime(r.review.dueDate)
    ensures r.Updated? && QualityJs(quality) < 3 ==> r.review.repetitions == 0 && r.review.intervalDays == 1
  {
    var n := Next(ReadJs(c), QualityJs(quality), HalfUp, now);
    if JsTime(now) && JsTime(n.dueDate) then Updated(n) else DateOutOfRange
  }

  /** `sm2_update(card, quality, now)` of the Python twin. The due date
      `now + timedelta(days=interval)` raises OverflowError past year 9999.
      (`timedelta` itself refuses more than 999999999 days, but any such
      interval already carries a valid `now` past year 9999.) */
  function UpdatePy(c: StoredCard, quality: real, now: int): (r: Outcome)
    ensures r.DateOutOfRange? <==>
      !PyTime(now) || !PyTime(Next(ReadPy(c), QualityPy(quality), HalfEven, now).dueDate)
    ensures r.Updated? ==> r.review == Next(ReadPy(c), QualityPy(quality), HalfEven, now)
    ensures r.Updated? ==>
      && r.review.easeFactor >= MinEase && r.review.lastReviewed == now
      && r.review.dueDate == now + r.review.intervalDays * DayMs
      && PyTime(r.review.dueDate)
    ensures r.Updated? && QualityPy(quality) < 3 ==> r.review.repetitions == 0 && r.review.intervalDays == 1
  {
    var n := Next(ReadPy(c), QualityPy(quality), HalfEven, now);
    if PyTime(now) && PyTime(n.dueDate) then Updated(n) else DateOutOfRange
  }

  /** The fields the demo loop copies back into the card after each review. */
  function Carry(r: Review): State {
    State(r.easeFactor, r.repetitions, r.intervalDays)
  }

  /** The demo loop: review a card once per grade, feeding each result back.
      Each call reads the clock afresh, so review `i` happens at `nows[i]`. */
  function Replay(s: State, grades: seq<Grade>, m: Rounding, nows: seq<int>): (rs: seq<Review>)
    requires |nows| == |grades|
    ensures |rs| == |grades|
    ensures forall i :: 0 <= i < |rs| ==> rs[i].easeFactor >= MinEase
    ensures forall i :: 0 <= i < |rs| ==>
      rs[i].lastReviewed == nows[i] && rs[i].dueDate == nows[i] + rs[i].intervalDays * DayMs
    decreases |grades|
  {
    if grades == [] then []
    else
      var r := Next(s, grades[0], m, nows[0]);
      [r] + Replay(Carry(r), grades[1..], m, nows[1..])
  }

  /** The fields a run of the demo loop leaves on the card. */
  function Final(s: State, grades: seq<Grade>, m: Rounding, nows: seq<int>): State
    requires |nows| == |grades|
    decreases |grades|
  {
    if grades == [] then s
    else Final(Carry(Next(s, grades[0], m, nows[0])), grades[1..], m, nows[1..])
  }

  // ---------------------------------------------------------------------------
  // Properties

  /** A lapse forgets everything about the card's history except its ease:
      two cards that lapse at the same instant get the same count, interval
      and due date. */
  lemma LapseForgetsHistory(s: State, t: State, q: Grade, m: Rounding, now: int)
    requires q < 3
    ensures Next(s, q, m, now).repetitions == Next(t, q, m, now).repetitions == 0
    ensures Next(s, q, m, now).intervalDays == Next(t, q, m, now).intervalDays == 1
    ensures Next(s, q, m, now).dueDate == Next(t, q, m, now).dueDate == now + DayMs
  {
  }

  /** The change the ease formula makes for each grade. */
  function Step(q: Grade): real {
    if q == 5 then 0.1 else if q == 4 then 0.0 else if q == 3 then -0.14
    else if q == 2 then -0.32 else if q == 1 then -0.54 else -0.8
  }

  /** The ease formula is a fixed step per grade, floored. */
  lemma EaseAfterStep(ef: real, q: Grade)
    ensures EaseAfter(ef, q) == if ef + Step(q) < MinEase then MinEase else ef + Step(q)
  {
    var d := (5 - q) as real;
    assert d * (0.08 + d * 0.02) == 0.1 - Step(q) by {
      if q == 5 {} else if q == 4 {} else if q == 3 {} else if q == 2 {} else if q == 1 {} else {}
    }
  }

  /** Every step is a whole number of ten-thousandths. */
  lemma StepKeepsFourDecimals(ef: real, q: Grade)
    requires (ef * 10000.0).Floor as real == ef * 10000.0
    ensures ((ef + Step(q)) * 10000.0).Floor as real == (ef + Step(q)) * 10000.0
  {
    var k := if q == 5 then 1000 else if q == 4 then 0 else if q == 3 then -1400
             else if q == 2 then -3200 else if q == 1 then -5400 else -8000;
    assert Step(q) * 10000.0 == k as real;
    assert (ef + Step(q)) * 10000.0 == ((ef * 10000.0).Floor + k) as real;
  }

  /** The grade adjusts the stored ease by a fixed step: +0.1 for 5, nothing
      for 4, and -0.14, -0.32, -0.54, -0.8 for 3, 2, 1, 0, floored at 1.3.
      The step is exact for an ease that was itself stored (four decimals),
      whatever the card's count and interval. */
  lemma EaseSteps(s: State, q: Grade, m: Rounding, now: int)
    requires (s.easeFactor * 10000.0).Floor as real == s.easeFactor * 10000.0
    ensures var ef, r := s.easeFactor, Next(s, q, m, now).easeFactor;
      && (q == 5 ==> r == if ef + 0.1 < MinEase then MinEase else ef + 0.1)
      && (q == 4 ==> r == if ef < MinEase then MinEase else ef)
      && (q == 3 ==> r == if ef - 0.14 < MinEase then MinEase else ef - 0.14)
      && (q == 2 ==> r == if ef - 0.32 < MinEase then MinEase else ef - 0.32)
      && (q == 1 ==> r == if ef - 0.54 < MinEase then MinEase else ef - 0.54)
      && (q == 0 ==> r == if ef - 0.8 < MinEase then MinEase else ef - 0.8)
  {
    var ef := s.easeFactor;
    EaseAfterStep(ef, q);
    var e := EaseAfter(ef, q);
    assert (e * 10000.0).Floor as real == e * 10000.0 by {
      if e == MinEase {
        assert e * 10000.0 == 13000.0;
      } else {
        StepKeepsFourDecimals(ef, q);
      }
    }
    assert StoredEase(m, e) == e;
  }

  /** On a success past the second one, the interval never shrinks while the
      ease is at least 1 (which the floor of 1.3 guarantees after any review). */
  lemma SuccessNeverShrinks(s: State, q: Grade, m: Rounding, now: int)
    requires q >= 3 && s.repetitions >= 2 && s.easeFactor >= 1.0 && s.intervalDays > 0
    ensures Next(s, q, m, now).intervalDays >= s.intervalDays
    ensures Next(s, q, m, now).repetitions == s.repetitions + 1
  {
  }

  /** The streak counts of a run go up by one per review, from `n + 1`. */
  ghost predicate CountsUpFrom(rs: seq<Review>, n: int) {
    forall i :: 0 <= i < |rs| ==> rs[i].repetitions == n + i + 1
  }

  /** Every interval of a run is at least `lo` days. */
  ghost predicate IntervalsAtLeast(rs: seq<Review>, lo: int) {
    forall i :: 0 <= i < |rs| ==> rs[i].intervalDays >= lo
  }

  /** The intervals of a run never shrink. */
  ghost predicate IntervalsNeverShrink(rs: seq<Review>) {
    forall i, j :: 0 <= i < j < |rs| ==> rs[i].intervalDays <= rs[j].intervalDays
  }

  /** A run of successes from a state already past its second success: the
      count goes up by one per review and the intervals never shrink. */
  lemma {:induction false} SuccessRunGrows(s: State, grades: seq<Grade>, m: Rounding, nows: seq<int>)
    requires s.repetitions >= 2 && s.easeFactor >= 1.0 && s.intervalDays > 0
    requires forall i :: 0 <= i < |grades| ==> grades[i] >= 3
    requires |nows| == |grades|
    ensures CountsUpFrom(Replay(s, grades, m, nows), s.repetitions)
    ensures IntervalsAtLeast(Replay(s, grades, m, nows), s.intervalDays)
    ensures IntervalsNeverShrink(Replay(s, grades, m, nows))
    decreases |grades|
  {
    if grades != [] {
      var r := Next(s, grades[0], m, nows[0]);
      var t := Carry(r);
      assert t.repetitions == s.repetitions + 1 && t.intervalDays >= s.intervalDays && t.easeFactor >= 1.0;
      var rest := Replay(t, grades[1..], m, nows[1..]);
      SuccessRunGrows(t, grades[1..], m, nows[1..]);
      assert CountsUpFrom(rest, t.repetitions) && IntervalsAtLeast(rest, t.intervalDays) && IntervalsNeverShrink(rest);
      RunCons(r, rest, s.repetitions, s.intervalDays);
    }
  }

  /** Putting one review in front of a run that continues it. */
  lemma RunCons(r: Review, rest: seq<Review>, n: int, lo: int)
    requires r.repetitions == n + 1 && r.intervalDays >= lo
    requires CountsUpFrom(rest, n + 1) && IntervalsAtLeast(rest, r.intervalDays) && IntervalsNeverShrink(rest)
    ensures CountsUpFrom([r] + rest, n) && IntervalsAtLeast([r] + rest, lo) && IntervalsNeverShrink([r] + rest)
  {
    var rs := [r] + rest;
    forall i | 0 < i < |rs|
      ensures rs[i].repetitions == n + i + 1 && rs[i].intervalDays >= r.intervalDays
    {
      assert rs[i] == rest[i - 1];
    }
    forall i, j | 0 <= i < j < |rs|
      ensures rs[i].intervalDays <= rs[j].intervalDays
    {
      if i > 0 {
        assert rs[i] == rest[i - 1] && rs[j] == rest[j - 1];
      }
    }
  }

  /** Successes from a new card: the count runs 1, 2, 3, ...; the interval
      runs 1, 6, and then never shrinks. */
  lemma {:induction false} SuccessRunFromNew(grades: seq<Grade>, m: Rounding, nows: seq<int>)
    requires forall i :: 0 <= i < |grades| ==> grades[i] >= 3
    requires |nows| == |grades|
    ensures CountsUpFrom(Replay(NewCard, grades, m, nows), 0)
    ensures IntervalsAtLeast(Replay(NewCard, grades, m, nows), 1)
    ensures IntervalsNeverShrink(Replay(NewCard, grades, m, nows))
    ensures |grades| > 0 ==> Replay(NewCard, grades, m, nows)[0].intervalDays == 1
    ensures |grades| > 1 ==> Replay(NewCard, grades, m, nows)[1].intervalDays == 6
  {
    if grades != [] {
      var r0 := Next(NewCard, grades[0], m, nows[0]);
      var rest0 := Replay(Carry(r0), grades[1..], m, nows[1..]);
      assert Replay(NewCard, grades, m, nows) == [r0] + rest0;
      assert r0.repetitions == 1 && r0.intervalDays == 1;
      if |grades| == 1 {
        RunCons(r0, rest0, 0, 1);
      } else {
        var g1, n1 := grades[1..], nows[1..];
        var r1 := Next(Carry(r0), g1[0], m, n1[0]);
        var t := Carry(r1);
        assert t.repetitions == 2 && t.intervalDays == 6 && t.easeFactor >= 1.0;
        var rest := Replay(t, g1[1..], m, n1[1..]);
        SuccessRunGrows(t, g1[1..], m, n1[1..]);
        assert rest0 == [r1] + rest;
        RunCons(r1, rest, 1, 6);
        RunCons(r0, rest0, 0, 1);
      }
    }
  }

  /** The first three reviews of the demo: three fives from a new card. */
  lemma GoldenTraceOpening(m: Rounding, t0: int, t1: int, t2: int)
    ensures Next(NewCard, 5, m, t0) == Review(2.6, 1, 1, t0 + DayMs, t0)
    ensures Next(State(2.6, 1, 1), 5, m, t1) == Review(2.7, 2, 6, t1 + 6 * DayMs, t1)
    ensures Next(State(2.7, 2, 6), 5, m, t2) == Review(2.8, 3, 16, t2 + 16 * DayMs, t2)
  {
    assert StoredEase(m, 2.6) == 2.6 by { assert (26000.0).Floor == 26000; }
    assert StoredEase(m, 2.7) == 2.7 by { assert (27000.0).Floor == 27000; }
    assert StoredEase(m, 2.8) == 2.8 by { assert (28000.0).Floor == 28000; }
    assert GrownInterval(m, State(2.7, 2, 6)) == 16 by {
      assert (16.2).Floor == 16;
      assert (16.7).Floor == 16;
    }
  }

  /** The last three reviews of the demo: a four, a lapse, and a five. */
  lemma GoldenTraceClosing(m: Rounding, t3: int, t4: int, t5: int)
    ensures Next(State(2.8, 3, 16), 4, m, t3) == Review(2.8, 4, 45, t3 + 45 * DayMs, t3)
    ensures Next(State(2.8, 4, 45), 2, m, t4) == Review(2.48, 0, 1, t4 + DayMs, t4)
    ensures Next(State(2.48, 0, 1), 5, m, t5) == Review(2.58, 1, 1, t5 + DayMs, t5)
  {
    assert StoredEase(m, 2.8) == 2.8 by { assert (28000.0).Floor == 28000; }
    assert StoredEase(m, 2.48) == 2.48 by { assert (24800.0).Floor == 24800; }
    assert StoredEase(m, 2.58) == 2.58 by { assert (25800.0).Floor == 25800; }
    assert GrownInterval(m, State(2.8, 3, 16)) == 45 by {
      assert (44.8).Floor == 44;
      assert (45.3).Floor == 45;
    }
  }

  /** One turn of the demo loop: the first review, then the rest of the run
      from the fields it carries back. */
  lemma ReplayStep(s: State, q: Grade, grades: seq<Grade>, m: Rounding, now: int, nows: seq<int>,
                   r: Review, rest: seq<Review>)
    requires |nows| == |grades|
    requires Next(s, q, m, now) == r
    requires Replay(Carry(r), grades, m, nows) == rest
    ensures Replay(s, [q] + grades, m, [now] + nows) == [r] + rest
  {
    assert ([q] + grades)[1..] == grades && ([now] + nows)[1..] == nows;
  }

  /** Putting one element in front of a sequence of up to two. */
  lemma Prepend<T>(a: T, b: T, c: T)
    ensures [a] + [] == [a] && [a] + [b] == [a, b] && [a] + [b, c] == [a, b, c]
  {
  }

  /** The last three turns of the demo loop, each at its own clock reading. */
  lemma GoldenTraceTail(m: Rounding, t3: int, t4: int, t5: int)
    ensures Replay(State(2.8, 3, 16), [4, 2, 5], m, [t3, t4, t5]) == [
              Review(2.8, 4, 45, t3 + 45 * DayMs, t3),
              Review(2.48, 0, 1, t4 + DayMs, t4),
              Review(2.58, 1, 1, t5 + DayMs, t5)]
  {
    var r3 := Review(2.8, 4, 45, t3 + 45 * DayMs, t3);
    var r4 := Review(2.48, 0, 1, t4 + DayMs, t4);
    var r5 := Review(2.58, 1, 1, t5 + DayMs, t5);
    GoldenTraceClosing(m, t3, t4, t5);
    ReplayStep(State(2.48, 0, 1), 5, [], m, t5, [], r5, []);
    Prepend(5 as Grade, 5, 5); Prepend(t5, t5, t5); Prepend(r5, r5, r5);
    ReplayStep(State(2.8, 4, 45), 2, [5], m, t4, [t5], r4, [r5]);
    Prepend(2 as Grade, 5, 5); Prepend(t4, t5, t5);
    ReplayStep(State(2.8, 3, 16), 4, [2, 5], m, t3, [t4, t5], r3, [r4, r5]);
    Prepend(4 as Grade, 2, 5); Prepend(t3, t4, t5);
  }

  /** The first three turns of the demo loop, each at its own clock reading. */
  lemma GoldenTraceHead(m: Rounding, t0: int, t1: int, t2: int)
    ensures Replay(NewCard, [5, 5, 5], m, [t0, t1, t2]) == [
              Review(2.6, 1, 1, t0 + DayMs, t0),
              Review(2.7, 2, 6, t1 + 6 * DayMs, t1),
              Review(2.8, 3, 16, t2 + 16 * DayMs, t2)]
    ensures Final(NewCard, [5, 5, 5], m, [t0, t1, t2]) == State(2.8, 3, 16)
  {
    var r0 := Review(2.6, 1, 1, t0 + DayMs, t0);
    var r1 := Review(2.7, 2, 6, t1 + 6 * DayMs, t1);
    var r2 := Review(2.8, 3, 16, t2 + 16 * DayMs, t2);
    GoldenTraceOpening(m, t0, t1, t2);
    ReplayStep(State(2.7, 2, 6), 5, [], m, t2, [], r2, []);
    Prepend(5 as Grade, 5, 5); Prepend(t2, t2, t2); Prepend(r2, r2, r2);
    ReplayStep(State(2.6, 1, 1), 5, [5], m, t1, [t2], r1, [r2]);
    Prepend(t1, t2, t2);
    ReplayStep(NewCard, 5, [5, 5], m, t0, [t1, t2], r0, [r1, r2]);
    Prepend(t0, t1, t2);
    FinalStep(State(2.7, 2, 6), 5, [], m, t2, [], r2);
    FinalStep(State(2.6, 1, 1), 5, [5], m, t1, [t2], r1);
    FinalStep(NewCard, 5, [5, 5], m, t0, [t1, t2], r0);
  }

  /** Putting a review in front of a concatenation. */
  lemma ConsAppend(r: Review, a: seq<Review>, b: seq<Review>)
    ensures [r] + (a + b) == ([r] + a) + b
  {
  }

  /** One turn of the demo loop, as seen in the fields left on the card. */
  lemma FinalStep(s: State, q: Grade, grades: seq<Grade>, m: Rounding, now: int, nows: seq<int>, r: Review)
    requires |nows| == |grades|
    requires Next(s, q, m, now) == r
    ensures Final(s, [q] + grades, m, [now] + nows) == Final(Carry(r), grades, m, nows)
  {
    assert ([q] + grades)[1..] == grades && ([now] + nows)[1..] == nows;
  }

  /** Running the demo loop over two lists of grades in turn is running it
      over their concatenation: the second run starts from the fields the
      first one leaves on the card. */
  lemma {:induction false} ReplayAppend(s: State, g1: seq<Grade>, g2: seq<Grade>, m: Rounding, n1: seq<int>, n2: seq<int>)
    requires |n1| == |g1| && |n2| == |g2|
    ensures Replay(s, g1 + g2, m, n1 + n2) == Replay(s, g1, m, n1) + Replay(Final(s, g1, m, n1), g2, m, n2)
    decreases |g1|
  {
    if g1 == [] {
      assert g1 + g2 == g2 && n1 + n2 == n2;
    } else {
      var r := Next(s, g1[0], m, n1[0]);
      assert (g1 + g2)[1..] == g1[1..] + g2 && (n1 + n2)[1..] == n1[1..] + n2;
      ReplayAppend(Carry(r), g1[1..], g2, m, n1[1..], n2);
      ConsAppend(r, Replay(Carry(r), g1[1..], m, n1[1..]), Replay(Final(s, g1, m, n1), g2, m, n2));
    }
  }

  /** The demo's grades and clock readings, each cut after the third. */
  lemma SplitInHalves(g1: seq<Grade>, g2: seq<Grade>, n1: seq<int>, n2: seq<int>)
    requires g1 == [5, 5, 5] && g2 == [4, 2, 5]
    ensures g1 + g2 == [5, 5, 5, 4, 2, 5]
    ensures |n1| == 3 && |n2| == 3 ==> n1 + n2 == [n1[0], n1[1], n1[2], n2[0], n2[1], n2[2]]
  {
  }

  /** Two runs of three reviews, one after the other. */
  lemma JoinHalves(a: Review, b: Review, c: Review, d: Review, e: Review, f: Review)
    ensures [a, b, c] + [d, e, f] == [a, b, c, d, e, f]
  {
  }

  /** The demo trace: from a new card, grades 5, 5, 5, 4, 2, 5 give counts
      1, 2, 3, 4, 0, 1, intervals 1, 6, 16, 45, 1, 1 and eases 2.6, 2.7,
      2.8, 2.8, 2.48, 2.58, under either twin's rounding, each review dated
      by its own clock reading. */
  lemma GoldenTrace(m: Rounding, t0: int, t1: int, t2: int, t3: int, t4: int, t5: int)
    ensures Replay(NewCard, [5, 5, 5, 4, 2, 5], m, [t0, t1, t2, t3, t4, t5]) == [
              Review(2.6, 1, 1, t0 + DayMs, t0),
              Review(2.7, 2, 6, t1 + 6 * DayMs, t1),
              Review(2.8, 3, 16, t2 + 16 * DayMs, t2),
              Review(2.8, 4, 45, t3 + 45 * DayMs, t3),
              Review(2.48, 0, 1, t4 + DayMs, t4),
              Review(2.58, 1, 1, t5 + DayMs, t5)]
  {
    GoldenTraceHead(m, t0, t1, t2);
    GoldenTraceTail(m, t3, t4, t5);
    ReplayAppend(NewCard, [5, 5, 5], [4, 2, 5], m, [t0, t1, t2], [t3, t4, t5]);
    SplitInHalves([5, 5, 5], [4, 2, 5], [t0, t1, t2], [t3, t4, t5]);
    JoinHalves(Review(2.6, 1, 1, t0 + DayMs, t0), Review(2.7, 2, 6, t1 + 6 * DayMs, t1),
               Review(2.8, 3, 16, t2 + 16 * DayMs, t2), Review(2.8, 4, 45, t3 + 45 * DayMs, t3),
               Review(2.48, 0, 1, t4 + DayMs, t4), Review(2.58, 1, 1, t5 + DayMs, t5));
  }

  /** Neither rounding of a review lands exactly on a half. */
  predicate NoHalfRounding(s: State, q: Grade) {
    !OnHalf(Base(s) as real * s.easeFactor) && !OnHalf(EaseAfter(s.easeFactor, q) * 10000.0)
  }

  lemma GrownIntervalOffHalf(s: State)
    requires !OnHalf(Base(s) as real * s.easeFactor)
    ensures GrownInterval(HalfUp, s) == GrownInterval(HalfEven, s)
  {
    var x := Base(s) as real * s.easeFactor;
    RoundingsAgreeOffHalf(x);
    RoundIsHalfUp(x);
    RoundIsHalfEven(x);
    assert GrownInterval(HalfUp, s) == RoundHalfUp(x);
    assert GrownInterval(HalfEven, s) == RoundHalfEven(x);
  }

  lemma StoredEaseOffHalf(e: real)
    requires !OnHalf(e * 10000.0)
    ensures StoredEase(HalfUp, e) == StoredEase(HalfEven, e)
  {
    RoundingsAgreeOffHalf(e * 10000.0);
    RoundIsHalfUp(e * 10000.0);
    RoundIsHalfEven(e * 10000.0);
  }

  /** The rounding rule only matters when a rounding lands on a half. */
  lemma RoundingMattersOnlyOnHalves(s: State, q: Grade, now: int)
    requires NoHalfRounding(s, q)
    ensures Next(s, q, HalfUp, now) == Next(s, q, HalfEven, now)
  {
    GrownIntervalOffHalf(s);
    StoredEaseOffHalf(EaseAfter(s.easeFactor, q));
  }

  /** The two twins agree on every ordinary input: stored counts and
      intervals within 32 bits, a grade within 32 bits, and no rounding that
      lands exactly on a half. Where Python's narrower date range admits the
      due date, so does JavaScript's, with the same fields. */
  lemma TwinsAgree(c: StoredCard, quality: real, now: int)
    requires c.repetitions.Some? ==> -TwoTo31 <= c.repetitions.value < TwoTo31
    requires c.intervalDays.Some? ==> -TwoTo31 <= c.intervalDays.value < TwoTo31
    requires -TwoTo31 as real < quality < TwoTo31 as real
    requires NoHalfRounding(ReadPy(c), QualityPy(quality))
    ensures UpdatePy(c, quality, now).Updated? ==> UpdateJs(c, quality, now) == UpdatePy(c, quality, now)
    ensures UpdateJs(c, quality, now).DateOutOfRange? ==> UpdatePy(c, quality, now).DateOutOfRange?
  {
    assert ReadJs(c) == ReadPy(c);
    assert QualityJs(quality) == QualityPy(quality);
    RoundingMattersOnlyOnHalves(ReadPy(c), QualityPy(quality), now);
  }

  /** Where the twins part: a third success on a 5-day interval with ease
      2.5 gives 12.5 days, which JavaScript rounds to 13 and Python to 12. */
  lemma TwinsDivergeOnHalfDay(now: int)
    requires MinPyTime <= now <= MaxPyTime - 13 * DayMs
    ensures var c := StoredCard(Some(2.5), Some(2), Some(5));
      && UpdateJs(c, 5.0, now).Updated? && UpdateJs(c, 5.0, now).review.intervalDays == 13
      && UpdatePy(c, 5.0, now).Updated? && UpdatePy(c, 5.0, now).review.intervalDays == 12
  {
    assert (13.0).Floor == 13;
    assert (12.5).Floor == 12;
  }

  /** Where the twins part on dates: a third success on a 2,000,000-day
      interval gives 5,000,000 days, about 13,700 years, which a JavaScript
      Date still holds and a Python datetime does not. */
  lemma TwinsDivergeOnFarDate()
    ensures var c := StoredCard(Some(2.5), Some(2), Some(2_000_000));
      && UpdateJs(c, 5.0, 0).Updated? && UpdateJs(c, 5.0, 0).review.intervalDays == 5_000_000
      && UpdatePy(c, 5.0, 0).DateOutOfRange?
  {
    assert (5_000_000.5).Floor == 5_000_000;
    assert (5_000_000.0).Floor == 5_000_000;
  }

  /** Where the twins part on the grade: 2^32 + 3 wraps to 3 in JavaScript
      (a success) but clamps to 5 in Python. */
  lemma TwinsDivergeOnHugeGrade()
    ensures QualityJs(TwoTo32 as real + 3.0) == 3
    ensures QualityPy(TwoTo32 as real + 3.0) == 5
  {
    assert Trunc(TwoTo32 as real + 3.0) == TwoTo32 + 3;
  }
}

=== FILE: text.dfy ===
/**
  The string operations the card search and the add form use:
  JavaScript's String.prototype.trim, toLowerCase (on ASCII letters) and
  includes.
 */
module Text {

  /** ECMAScript WhiteSpace and LineTerminator code points, the set `trim`
      removes: TAB, LF, VT, FF, CR, SPACE, NO-BREAK SPACE, the other space
      separators of Unicode category Zs, LINE and PARAGRAPH SEPARATOR, and
      the byte order mark. */
  predicate IsWhitespace(ch: char) {
    var n := ch as int;
    (0x09 <= n <= 0x0D) || n == 0x20 || n == 0xA0 || n == 0x1680 ||
    (0x2000 <= n <= 0x200A) || n == 0x2028 || n == 0x2029 || n == 0x202F ||
    n == 0x205F || n == 0x3000 || n == 0xFEFF
  }

  /** Every character is whitespace (so `trim` leaves nothing). */
  predicate IsBlank(s: string) {
    forall i :: 0 <= i < |s| ==> IsWhitespace(s[i])
  }

  /** The first position from `i` on that does not hold whitespace, or
      the end of `s`. */
  function SkipForward(s: string, i: nat): (n: nat)
    requires i <= |s|
    ensures i <= n <= |s|
    ensures forall k :: i <= k < n ==> IsWhitespace(s[k])
    ensures n == |s| || !IsWhitespace(s[n])
    decreases |s| - i
  {
    if i < |s| && IsWhitespace(s[i]) then SkipForward(s, i + 1) else i
  }

  /** The position just after the last character before `j` that is not
      whitespace, or 0. */
  function SkipBackward(s: string, j: nat): (n: nat)
    requires j <= |s|
    ensures n <= j
    ensures forall k :: n <= k < j ==> IsWhitespace(s[k])
    ensures n == 0 || !IsWhitespace(s[n - 1])
  {
    if j > 0 && IsWhitespace(s[j - 1]) then SkipBackward(s, j - 1) else j
  }

  /** Drop leading whitespace. */
  function TrimStart(s: string): (r: string)
    ensures |r| <= |s| && r == s[|s| - |r|..]
    ensures IsBlank(s[..|s| - |r|])
    ensures r == [] || !IsWhitespace(r[0])
  {
    s[SkipForward(s, 0)..]
  }

  /** Drop trailing whitespace. */
  function TrimEnd(s: string): (r: string)
    ensures |r| <= |s| && r == s[..|r|]
    ensures IsBlank(s[|r|..])
    ensures r == [] || !IsWhitespace(r[|r| - 1])
  {
    s[..SkipBackward(s, |s|)]
  }

  /** `r` is the part of `s` that starts at offset `i`, with only
      whitespace before and after it. */
  predicate TrimmedAt(s: string, r: string, i: int) {
    && 0 <= i && i + |r| <= |s|
    && r == s[i..i + |r|]
    && IsBlank(s[..i]) && IsBlank(s[i + |r|..])
  }

  /** `s.trim()`: the middle part of `s` left once its leading and trailing
      whitespace is removed; it neither starts nor ends with whitespace, and
      it is empty exactly when `s` is blank. */
  function Trim(s: string): (r: string)
    ensures |r| <= |s|
    ensures exists i :: TrimmedAt(s, r, i)
    ensures r == [] || (!IsWhitespace(r[0]) && !IsWhitespace(r[|r| - 1]))
    ensures r == [] <==> IsBlank(s)
  {
    var t := TrimStart(s);
    var r := TrimEnd(t);
    var i := |s| - |t|;
    assert TrimmedAt(s, r, i) by {
      assert s[i..i + |r|] == t[..|r|];
      assert s[i + |r|..] == t[|r|..];
    }
    assert r == [] ==> IsBlank(s) by {
      if r == [] {
        assert s == s[..i] + s[i..];
      }
    }
    r
  }

  /** Trim is the only such middle part: any part of `s` framed by
      whitespace that neither starts nor ends with whitespace is `Trim(s)`. */
  lemma TrimUnique(s: string, t: string, i: int)
    requires TrimmedAt(s, t, i)
    requires t == [] || (!IsWhitespace(t[0]) && !IsWhitespace(t[|t| - 1]))
    ensures t == Trim(s)
  {
    var r := Trim(s);
    var j :| TrimmedAt(s, r, j);
    if t == [] {
      assert IsBlank(s) by {
        forall k | 0 <= k < |s| ensures IsWhitespace(s[k]) {
          if k < i {
            assert s[k] == s[..i][k];
          } else {
            assert s[k] == s[i..][k - i];
          }
        }
      }
    } else {
      assert r != [] by {
        assert s[i] == t[0];
      }
      TrimFramesAgree(s, t, i, r, j);
    }
  }

  /** Two non-empty framed parts that neither start nor end with whitespace
      coincide. */
  lemma TrimFramesAgree(s: string, t: string, i: int, r: string, j: int)
    requires TrimmedAt(s, t, i) && TrimmedAt(s, r, j)
    requires t != [] && !IsWhitespace(t[0]) && !IsWhitespace(t[|t| - 1])
    requires r != [] && !IsWhitespace(r[0]) && !IsWhitespace(r[|r| - 1])
    ensures t == r
  {
    assert s[i] == t[0] && s[j] == r[0];
    assert s[i + |t| - 1] == t[|t| - 1] && s[j + |r| - 1] == r[|r| - 1];
  }

  /** Lower-case one character. Only the ASCII letters A-Z are mapped. */
  function LowerChar(ch: char): (r: char)
    ensures 'A' <= ch <= 'Z' ==> r as int == ch as int + 32
    ensures !('A' <= ch <= 'Z') ==> r == ch
    ensures !('A' <= r <= 'Z')
  {
    if 'A' <= ch <= 'Z' then (ch as int + 32) as char else ch
  }

  /** `s.toLowerCase()`, character by character. */
  function Lower(s: string): (r: string)
    ensures |r| == |s|
    ensures forall i :: 0 <= i < |s| ==> r[i] == LowerChar(s[i])
  {
    seq(|s|, i requires 0 <= i < |s| => LowerChar(s[i]))
  }

  /** `text.includes(q)`: `q` occurs in `text` starting somewhere. */
  predicate Contains(text: string, q: string)
    decreases |text|
  {
    q <= text || (text != [] && Contains(text[1..], q))
  }

  /** `q` occurs in `text` at offset `i`. */
  predicate OccursAt(text: string, q: string, i: int) {
    0 <= i <= |text| - |q| && text[i..i + |q|] == q
  }

  /** Contains is the search for an occurrence of `q` at some offset. */
  lemma {:induction false} ContainsAt(text: string, q: string)
    ensures Contains(text, q) <==> exists i :: OccursAt(text, q, i)
    decreases |text|
  {
    if text != [] {
      ContainsAt(text[1..], q);
      if Contains(text[1..], q) {
        var i :| OccursAt(text[1..], q, i);
        assert text[i + 1..i + 1 + |q|] == q;
        assert OccursAt(text, q, i + 1);
      }
      if q <= text {
        assert OccursAt(text, q, 0);
      }
      if i :| OccursAt(text, q, i) {
        if i > 0 {
          assert text[1..][i - 1..i - 1 + |q|] == q;
          assert OccursAt(text[1..], q, i - 1);
        } else {
          assert q <= text;
        }
      }
    } else {
      if q == [] {
        assert OccursAt(text, q, 0);
      }
    }
  }

  /** Lower-casing does not change what counts as whitespace. */
  lemma LowerKeepsWhitespace(ch: char)
    ensures IsWhitespace(LowerChar(ch)) == IsWhitespace(ch)
  {
  }

  /** Lower-casing twice is lower-casing once. */
  lemma LowerIdempotent(s: string)
    ensures Lower(Lower(s)) == Lower(s)
  {
  }

  /** Lower-casing does not move the first non-blank position. */
  lemma {:induction false} SkipForwardLower(s: string, i: nat)
    requires i <= |s|
    ensures SkipForward(Lower(s), i) == SkipForward(s, i)
    decreases |s| - i
  {
    if i < |s| {
      LowerKeepsWhitespace(s[i]);
      SkipForwardLower(s, i + 1);
    }
  }

  /** Lower-casing does not move the last non-blank position. */
  lemma {:induction false} SkipBackwardLower(s: string, j: nat)
    requires j <= |s|
    ensures SkipBackward(Lower(s), j) == SkipBackward(s, j)
  {
    if j > 0 {
      LowerKeepsWhitespace(s[j - 1]);
      SkipBackwardLower(s, j - 1);
    }
  }

  /** Trimming leading whitespace and lower-casing commute. */
  lemma TrimStartLower(s: string)
    ensures TrimStart(Lower(s)) == Lower(TrimStart(s))
  {
    SkipForwardLower(s, 0);
  }

  /** Trimming trailing whitespace and lower-casing commute. */
  lemma TrimEndLower(s: string)
    ensures TrimEnd(Lower(s)) == Lower(TrimEnd(s))
  {
    SkipBackwardLower(s, |s|);
  }

  /** Trimming and lower-casing commute, so the search may do them in
      either order. */
  lemma TrimLower(s: string)
    ensures Trim(Lower(s)) == Lower(Trim(s))
  {
    TrimStartLower(s);
    TrimEndLower(TrimStart(s));
  }

  /** Trimming twice is trimming once. */
  lemma TrimIdempotent(s: string)
    ensures Trim(Trim(s)) == Trim(s)
  {
  }
}
